=== FILE: README.md ===
# hecs entity allocator, modelled in Dafny

This project models the entity-id allocator of the hecs ECS library (`src/entities.rs`) and
proves properties of it.

An `Entity` is a handle of 32-bit `generation` and 32-bit `id`. `Entities` owns three fields:

- `meta`, one slot (generation and location) per id.
- `pending`, the freed ids.
- `free_cursor`, a signed cursor.

`pending[..free_cursor]` is the freelist. The rest of `pending` has been reserved. A negative
cursor counts brand-new ids reserved past the end of `meta`. `reserve_entities` and
`reserve_entity` hand out ids by moving the cursor down. `flush` then gives every reserved id a
slot and calls `init` on its location. `alloc` and `free` work directly on a flushed table.

The model has five modules:

- `Handles` (`handles.dfy`) holds `Entity`, its packed 64-bit form `to_bits`/`from_bits`,
  `id`, and the derived ordering.
- `Slots` (`slots.dfy`) holds `Location`, `EntityMeta`, `EntityMeta::EMPTY`, `NoSuchEntity`,
  the wrapping generation increment, and `InitSlots`. `InitSlots` is the table after `init`
  has run over a list of ids.
- `Reservation` (`reservation.dfy`) holds the arithmetic of the free cursor as pure functions.
  A position `p >= 0` names `pending[p]`, and a position `p < 0` names the new id
  `|meta| - p - 1`.
  - A call that moves the cursor from `end` to `end - count` hands out the positions
    `[end - count, end)`. That batch is `ReserveBatch`.
  - Everything reserved since the last flush is the single batch from the cursor to
    `|pending|`.
  - The lemmas show that successive reservations partition this line (`BatchSplit`,
    `ReserveMore`) and that their ids are distinct (`SuccessiveBatchesDisjoint`).
  - They also show that `flush` visits exactly those ids (`FlushVisitsOutstanding`).
- `Allocator` (`allocator.dfy`) holds two classes.
  - `ReserveEntitiesIterator`: fields `meta`, `idIter` and the range `idRangeStart ..
    idRangeEnd`, with `Next` and `SizeHint`.
  - `Entities`: fields `meta`, `pending` and `freeCursor`, with every operation as a method
    or function. The reservation operations and `Flush` are proved against the `Reservation`
    functions; `Contains`, `Get`, `GetMut`, `SetLocation`, `Alloc`, `Free` and `Clear` are
    stated directly over `meta` and `pending`.
  - `Entities.Valid()` is the class invariant. `Entities.Outstanding()` is the sequence of
    reserved-but-unflushed handles.
- `Scenarios` (`scenarios.dfy`) restates the unit tests of the source as clients of the classes.
  The `reserve_entities` and `reserve_entity` tests, through `reserve_test_helper`, are stated
  first for any sizes and then for the test's own numbers. The `contains` test is stated for its
  own numbers only. The `alloc_and_free` test is stated for any sequence of random choices.

The source and its own doc comments differ in two places. First, the doc comment of
`reserve_entity` calls
it equivalent to `reserve_entities(1).next().unwrap()`. The code differs at the very top of the
id space:

- `reserve_entity` succeeds when the new id is `u32::MAX`.
- `reserve_entities(1)` panics there, because the exclusive end of its range would not fit a
  `u32`.

The model follows the code. `Entities.ReserveEntity` requires `|meta| - freeCursor <= U32_MAX`.
`Entities.ReserveEntities` requires `|meta| - (freeCursor - count) <= U32_MAX`. Below that
boundary, `ReserveEntity` yields exactly the batch of one (`Reservation.BatchOfOne`).

Second, the doc comment of `resolve_unknown_gen` says it panics for an id outside `meta`. The
code panics only at or past `meta.len()` plus the number of pending new ids; for a pending new
id past `meta.len()` it returns that id with generation 0. The model follows the code:
`Entities.ResolveUnknownGen` requires `id < |meta| + Max(-freeCursor, 0)`.

## Model

| member | source | states |
|---|---|---|
| Handles.ToBits | src/entities.rs:25-27 | the generation is the packed value divided by 2^32 and the id is its remainder |
| Handles.FromBits | src/entities.rs:32-37 | the handle's generation times 2^32 plus its id gives back the bits |
| Handles.Id | src/entities.rs:44-46 | `id()` is the low 32 bits of `to_bits` |
| Handles.Compare | src/entities.rs:12-16 | the derived order (generation first, then id) is less, equal or greater exactly when the packed values are |
| Handles.FromBitsToBits | src/entities.rs:25-37 | `from_bits(to_bits(e)) == e` for every handle |
| Handles.ToBitsFromBits | src/entities.rs:25-37 | `to_bits(from_bits(b)) == b` for every 64-bit value |
| Handles.RoundTripExample | src/entities.rs:407-414 | the `entity_bits_roundtrip` test: handle `0xDEADBEEF`/`0xBAADF00D` packs to `0xDEADBEEF_BAADF00D` and back |
| Handles.ShiftOrIsPacking | src/entities.rs:25-27 | on 64-bit words, `g << 32 \| i` equals `g * 2^32 + i` |
| Handles.ShiftTruncateIsSplitting | src/entities.rs:32-37 | `bits >> 32` and the truncating `bits as u32` are the quotient and remainder by 2^32 |
| Handles.GenerationDominatesOrder | src/entities.rs:12-16 | for any two handles, the one with the higher generation compares greater, whatever the ids, and so does its packed 64-bit value |
| Slots.NextGeneration | src/entities.rs:237 | `generation += 1` always changes the generation; it wraps from `u32::MAX` to 0 |
| Slots.Empties | src/entities.rs:350 | `resize(.., EMPTY)` appends `n` slots, each equal to `EntityMeta::EMPTY` |
| Slots.InitSlots | src/entities.rs:341-363 | applying `init` along a list of ids keeps the table length and every generation |
| Slots.InitSlotsElsewhere | src/entities.rs:341-363 | a slot whose id `flush` does not visit is unchanged |
| Slots.InitSlotsOnce | src/entities.rs:341-363 | with no repeated id, each visited slot holds `init(id, old location)` and its old generation |
| Reservation.RecycledElements | src/entities.rs:70-78 | the k-th recycled handle is `pending` id k with its slot's current generation |
| Reservation.FreshElements | src/entities.rs:70-78 | the k-th new handle is `Entity { generation: 0, id: lo + k }` |
| Reservation.NewIdBounds | src/entities.rs:143-165 | the new-id range is empty when the batch stays in the freelist; otherwise it starts at or past `meta.len()` and is as long as the negative part of the batch |
| Reservation.ReserveBatch | src/entities.rs:135-172 | the batch of `count` below the cursor has exactly `count` handles |
| Reservation.BatchHandles | src/entities.rs:135-172 | every handle of a batch carries its slot's current generation, or is a new id of generation 0 below the new end of the table |
| Reservation.FlushOrder | src/entities.rs:341-363 | every id `flush` visits is below the grown table length, and none repeats when `pending` has no repeated id |
| Reservation.RecycledConcat | src/entities.rs:70-78 | recycling `x + y` yields recycling `x`, then recycling `y` |
| Reservation.FreshConcat | src/entities.rs:70-78 | the new ids `lo .. hi` are `lo .. mid` followed by `mid .. hi` |
| Reservation.RecycledSplit | src/entities.rs:135-172 | the recycled part of positions `[s, end)` is that of `[s, m)` followed by that of `[m, end)` |
| Reservation.NewIdsSplit | src/entities.rs:135-172 | the new ids of positions `[s, end)` are those of `[m, end)` followed by those of `[s, m)` |
| Reservation.BatchSplit | src/entities.rs:135-172 | a reservation down to `s` is a reservation down to `m` regrouped with a later one from `m` to `s`: the single subtraction partitions the cursor line |
| Reservation.BatchParts | src/entities.rs:135-172 | a batch is its freelist part followed by its new-id part |
| Reservation.RecycledIds | src/entities.rs:135-172 | the ids of the freelist part are `pending[max(start, 0) .. max(end, 0)]` |
| Reservation.NewIds | src/entities.rs:135-172 | the ids of the new-id part are consecutive from `new_id_start` to `new_id_end` |
| Reservation.BatchIds | src/entities.rs:135-172 | the ids of a batch are the freelist slice followed by the consecutive new ids |
| Reservation.BatchIdsDistinct | src/entities.rs:135-172 | one batch never hands out the same id twice when `pending` has no repeated id |
| Reservation.NewIdsAbove | src/entities.rs:155-165 | every new id lies at or above `meta.len()` |
| Reservation.IdRangeDisjoint | src/entities.rs:155-165 | consecutive id ranges that do not overlap as intervals share no id |
| Reservation.SuccessiveBatchesDisjoint | src/entities.rs:135-172 | two successive reservations share no id when `pending` has no repeated id |
| Reservation.BatchOfOne | src/entities.rs:175-197 | `reserve_entity` yields the one handle of `reserve_entities(1)` |
| Reservation.OneParts | src/entities.rs:177-197 | `reserve_entity` takes `pending[n - 1]` while `n > 0`, and the new id `meta.len() - n` otherwise |
| Reservation.EmptyBatch | src/entities.rs:135-172 | reserving nothing hands out nothing |
| Reservation.ReserveMore | src/entities.rs:135-172 | moving the cursor down by `count` hands out the batch below it; the outstanding set grows by its freelist part in front and its new ids behind |
| Reservation.ReserveOne | src/entities.rs:177-197 | the handle of one `reserve_entity` is vouched for by the table grown to cover it; it comes from the freelist exactly when `n > 0`, which is exactly when its id lies inside the table |
| Reservation.ReserveOneMore | src/entities.rs:177-197 | one `reserve_entity` adds its handle in front of the outstanding set (freelist) or behind it (new id) |
| Reservation.FlushedHandlesLive | src/entities.rs:341-358 | once the table has grown by generation-0 slots, every outstanding handle names a slot with its generation |
| Reservation.FlushVisitsOutstanding | src/entities.rs:341-363 | `flush` visits the ids of the outstanding new-id part in ascending order, then those of the outstanding freelist part |
| Reservation.FlushOrderWithNewIds | src/entities.rs:346-358 | with a negative cursor, `flush` visits `meta.len() .. meta.len() - cursor`, then all of `pending` |
| Reservation.FlushOrderWithoutNewIds | src/entities.rs:343-345 | with a non-negative cursor, `flush` visits only `pending[cursor..]` |
| Reservation.FlushCoversReserved | src/entities.rs:341-363 | as a multiset, `flush` visits exactly the ids reserved since the last flush |
| Allocator.ReserveEntitiesIterator.constructor | src/entities.rs:166-171 | the iterator holds the freelist slice and the new-id range it is built from |
| Allocator.ReserveEntitiesIterator.Next | src/entities.rs:70-78 | `next` yields the first remaining handle and drops it; it yields `None` only when nothing remains |
| Allocator.ReserveEntitiesIterator.SizeHint | src/entities.rs:80-86 | both bounds of `size_hint` equal the exact number of handles still to come |
| Allocator.Collect | src/entities.rs:527-529 | collecting the iterator yields exactly the handles it had left, in order, and exhausts it |
| Allocator.Entities.constructor | src/entities.rs:88-130 | `Entities::default()` has no slots, no pending ids and cursor 0 |
| Allocator.Entities.NeedsFlush | src/entities.rs:334-337 | `needs_flush` is true exactly when some reservation is outstanding |
| Allocator.Entities.Get | src/entities.rs:287-305 | `get` fails exactly when the handle is not contained; past the table or in archetype 0 it gives the placeholder location, otherwise the slot's location |
| Allocator.Entities.GetMut | src/entities.rs:277-284 | `get_mut` fails exactly when the generation differs, and otherwise reaches the slot's location |
| Allocator.Entities.SetLocation | src/entities.rs:277-284 | writing through `get_mut` changes only that slot's location and only when the handle is live |
| Allocator.Entities.ResolveUnknownGen | src/entities.rs:311-332 | the resolved handle has the given id and is contained; it has the slot's generation inside the table and generation 0 for a pending new id |
| Allocator.Entities.ReserveEntities | src/entities.rs:135-172 | the cursor drops by `count`; the iterator yields the batch below the old cursor with an exact size hint; the outstanding set grows by that batch |
| Allocator.Entities.ReserveEntity | src/entities.rs:177-197 | the cursor drops by one; the handle is `ReserveOne` of the old cursor and the batch of one below it, is contained, and joins the outstanding set |
| Allocator.Entities.Contains | src/entities.rs:260-266 | an id past the table is contained whatever its generation; an id inside it is contained exactly when the generations match |
| Allocator.Entities.Alloc | src/entities.rs:210-227 | `alloc` pops the last freed id with its current generation, or else appends an `EMPTY` slot for a new id of generation 0; the handle is contained |
| Allocator.Entities.Free | src/entities.rs:230-247 | `free` fails, changing nothing, exactly when the handle is stale; otherwise it bumps the generation, resets the location, returns the old location and pushes the id; the handle is no longer contained |
| Allocator.Entities.Clear | src/entities.rs:268-272 | `clear` leaves an empty, flushed table |
| Allocator.Entities.Flush | src/entities.rs:341-363 | `flush` leaves nothing outstanding; it visits ids in `FlushOrder`; the new table is the grown old table with `init` applied along that order; `pending` keeps only the freelist |
| Allocator.Resized | src/entities.rs:346-351 | growing the table keeps the old slots and appends one `EMPTY` slot per reserved new id |
| Allocator.FlushLeavesOutstandingLive | src/entities.rs:341-363 | after `flush`, every handle that was outstanding names a slot carrying its generation |
| Allocator.InitNewSlots | src/entities.rs:352-354 | the first loop of `flush` calls `init` on ids `old_meta_len ..` in ascending order |
| Allocator.InitDrained | src/entities.rs:360-362 | the drain loop of `flush` calls `init` on each drained id in turn |
| Allocator.OutstandingResolved | src/entities.rs:260-266 | every outstanding reservation is contained, and `resolve_unknown_gen` recovers it from its id |
| Allocator.GetAgreesWithGetMut | src/entities.rs:277-305 | on a slot of the table, `get` and `get_mut` fail alike and agree outside archetype 0 |
| Scenarios.AllocFresh | src/entities.rs:482-483 | `n` allocations on a fresh table yield ids `0 .. n`, all of generation 0 |
| Scenarios.CheckAndTouch | src/entities.rs:484-487 | every allocated handle is contained and `get_mut` succeeds on it; afterwards each reaches row 37 of its unchanged archetype, nothing but locations changes, and slots no handle names are untouched |
| Scenarios.FreeRun | src/entities.rs:490-492 | freeing a run of generation-0 handles in order succeeds each time, moves exactly those slots to generation 1 with the placeholder location, and makes the freelist exactly that run |
| Scenarios.AllocThenFreeTail | src/entities.rs:482-493 | after `n` allocations, the contains-and-write loop succeeds on every handle; after freeing the last `f`, the freelist is `n - f .. n`, the cursor is `f`, the kept ids are `0 .. n - f`, and each kept handle still reaches row 37 |
| Scenarios.ReserveFromFreedTail | src/entities.rs:495-496 | reserving `r` from that freelist hands out one consecutive run of ids ending `r` past the lowest id reused |
| Scenarios.FlushAfterFreedTail | src/entities.rs:514-518 | `flush` after that reservation visits the new ids, then the reused freed ids |
| Scenarios.ReserveAndCollect | src/entities.rs:527-529 | collecting `reserve_entities(count)` gives the batch below the cursor, all contained |
| Scenarios.FlushAfterReserve | src/entities.rs:514-518 | the test's `flush` leaves nothing outstanding and visits the new ids, then the reused freed ids |
| Scenarios.ReserveBatchAfterFree | src/entities.rs:478-518 | `reserve_test_helper` with `reserve_entities`, for any sizes: every allocated handle is contained and writable; cursor `f`, then `f - r`; the reserved ids are the consecutive run from `n - min(f, r)`, so when `f <= r` kept and reserved ids are exactly `0 .. n - f + r`; all reserved handles are contained; the `flush` order |
| Scenarios.KeptThenReserved | src/entities.rs:503-509 | when `f <= r`, kept ids `0 .. n - f` followed by reserved ids `n - f .. n - f + r` are `0 .. n - f + r` |
| Scenarios.ReserveOneByOne | src/entities.rs:522-524 | `reserve_entity` called `count` times yields, at call `k`, the single reservation from cursor `cursor - k`, each contained |
| Scenarios.SinglesFromFreedTail | src/entities.rs:522-524 | the single reservations return the freed ids from the top down, then new ids from `n` up |
| Scenarios.ReserveSinglesAfterFree | src/entities.rs:478-524 | `reserve_test_helper` with `reserve_entity`, for any sizes: every allocated handle is contained and writable; the freed ids from the top down, then new ids; the same cursor and `flush` outcome; when `f <= r`, sorted, kept and reserved ids are `0 .. n - f + r` |
| Scenarios.KeptThenSingles | src/entities.rs:503-509 | when `f <= r`, after sorting, kept ids and single reservations together are `0 .. n - f + r` |
| Scenarios.TestHelperNumbers | src/entities.rs:478-518 | the id ranges of `reserve_test_helper` written out |
| Scenarios.ReserveEntitiesTest | src/entities.rs:527-529 | the `reserve_entities` test: every allocated handle contained and writable; cursor 4 then -6; reserved ids 6 .. 15; kept and reserved exactly 0 .. 15; all contained; `flush` visits 10 .. 15 then 6 .. 9 |
| Scenarios.ReserveEntityTest | src/entities.rs:522-524 | the `reserve_entity` test: every allocated handle contained and writable; reserved ids 9, 8, 7, 6, 10 .. 15; sorted with the kept ids, exactly 0 .. 15; same cursor and `flush` |
| Scenarios.LedgerPop | src/entities.rs:428-440 | an `alloc` from the freelist hands out an id that is in the test's free set and not live; moving it to the live map keeps the bookkeeping |
| Scenarios.LedgerGrow | src/entities.rs:428-440 | an `alloc` of a new id hands out an id that is not live; making it live with generation 0 keeps the bookkeeping |
| Scenarios.AllocStep | src/entities.rs:427-440 | the alloc branch of `alloc_and_free`: while the test's free set is non-empty, the new id is in it; `get_mut` on the new handle succeeds; the id is not live already; the test's bookkeeping still matches the table |
| Scenarios.FreeStep | src/entities.rs:441-453 | the free branch of `alloc_and_free`: for any id below `first_unused`, `free` of the handle rebuilt from the live map (generation 0 when not live) succeeds exactly when the id is live; the bookkeeping still matches the table |
| Scenarios.AllocAndFree | src/entities.rs:417-456 | the `alloc_and_free` test for any sequence of random choices: no live id is ever handed out again, `alloc` draws from the freed ids while there are any, writing through `get_mut` always succeeds, and `free` succeeds exactly on live ids |
| Scenarios.ContainsTest | src/entities.rs:459-475 | the `contains` test: allocated handles are contained and stop being so once freed; reserved handles are contained before `flush` |

## Left out

- Atomics and concurrency are left out. `free_cursor` is an `AtomicI64` so that
  `reserve_entities` and `reserve_entity` can run through `&self`. The model runs every
  operation on its own and treats the fetch-subtract as an ordinary update.
- The cursor's 64-bit width is not modelled. `freeCursor` is an unbounded integer; the class
  invariant already keeps it within `-2^32 .. |pending|`.
- Panics become preconditions. These are the `expect("too many entities")` checks in
  `reserve_entities`, `reserve_entity` and `alloc`, the index panics of `free` and `get_mut`,
  and the out-of-range panic of `resolve_unknown_gen`.
- `verify_flushed` (a `debug_assert!`) becomes the precondition `!NeedsFlush()` of `Alloc` and
  `Free`.
- `Slots.NextGeneration`: `generation += 1` wraps to 0 as in a release build. The overflow
  panic of a debug build is not modelled.
- `reserve(additional)` is not modelled. It only reserves vector capacity, which the model does
  not have.
- `Allocator.Entities.GetMut`: Rust lifetimes are not modelled. `get_mut` returns a mutable
  reference. The model splits it into `GetMut`, which reads the location, and `SetLocation`,
  which writes through it.
- `Allocator.Entities.Flush`: `init` is a pure function `(u32, Location) -> Location`, not an
  `FnMut` with side effects. Instead, `Flush` returns the ids in the order `init` saw them. The
  multiset statement "flush visits exactly the reserved ids" is the separate lemma
  `Reservation.FlushCoversReserved`, not a postcondition of `Flush`.
- The `Debug` and `Display` formatting of `Entity` and `NoSuchEntity` is not modelled, and
  neither is the `std::error::Error` impl.
- The `Hash` derive of `Entity` is not modelled.
- `Scenarios.AllocAndFree`: the seeded random number generator of the `alloc_and_free` test is
  not modelled. Its choices become the parameter `ops`, so the method covers every sequence of
  choices, including the test's own 100 steps. It requires at most `u32::MAX` steps, which
  keeps every generation from wrapping around.
- The distinctness of `pending` is not an invariant of the source. Freeing a forged handle
  with a future generation can push an id twice. The model keeps it as a separate predicate.
  `Allocator.Entities.Free` preserves it when the freed id is not already pending, and the
  distinctness lemmas assume it.

=== FILE: allocator.dfy ===
/** The id allocator of src/entities.rs: the iterator `reserve_entities` returns and the
    `Entities` table with its freelist and free cursor. */
module Allocator {
  import opened Handles
  import opened Slots
  import opened Reservation

  /** `ReserveEntitiesIterator`: a snapshot of the table, the freelist slice still to hand
      out and the range of brand-new ids still to hand out. */
  class ReserveEntitiesIterator {
    const meta: seq<EntityMeta>
    var idIter: seq<u32>
    var idRangeStart: u32
    var idRangeEnd: u32

    predicate Valid()
      reads this
    {
      (forall i :: 0 <= i < |idIter| ==> idIter[i] < |meta|) && idRangeStart <= idRangeEnd
    }

    /** The handles the iterator has still to yield, in order. */
    function Remaining(): (handles: seq<Entity>)
      reads this
      requires Valid()
    {
      Recycled(meta, idIter) + Fresh(idRangeStart, idRangeEnd)
    }

    constructor (meta: seq<EntityMeta>, ids: seq<u32>, start: u32, end: u32)
      requires forall i :: 0 <= i < |ids| ==> ids[i] < |meta|
      requires start <= end
      ensures Valid()
      ensures this.meta == meta && idIter == ids && idRangeStart == start && idRangeEnd == end
    {
      this.meta := meta;
      idIter := ids;
      idRangeStart := start;
      idRangeEnd := end;
    }

    /** `next`: the freelist ids first, each with its slot's generation, then the new ids
        with generation 0; `None` once both are used up. */
    method Next() returns (item: Option<Entity>)
      requires Valid()
      modifies this
      ensures Valid()
      ensures old(Remaining()) == [] ==> item == None && Remaining() == []
      ensures old(Remaining()) != [] ==> item == Some(old(Remaining())[0]) && Remaining() == old(Remaining())[1..]
    {
      if |idIter| > 0 {
        var id := idIter[0];
        item := Some(Entity(meta[id].generation, id));
        idIter := idIter[1..];
      } else if idRangeStart < idRangeEnd {
        item := Some(Entity(0, idRangeStart));
        idRangeStart := idRangeStart + 1;
      } else {
        item := None;
      }
    }

    /** `size_hint`: exact, both bounds equal to the number of handles left. */
    function SizeHint(): (hint: (nat, Option<nat>))
      reads this
      requires Valid()
      ensures hint.0 == |Remaining()| && hint.1 == Some(|Remaining()|)
    {
      var len := |idIter| + (idRangeEnd - idRangeStart) as nat;
      (len, Some(len))
    }
  }

  /** Drains an iterator as `collect()` does: the result is exactly what was left to yield. */
  method Collect(it: ReserveEntitiesIterator) returns (items: seq<Entity>)
    requires it.Valid()
    modifies it
    ensures it.Valid() && it.Remaining() == []
    ensures items == old(it.Remaining())
  {
    items := [];
    var item := it.Next();
    while item.Some?
      invariant it.Valid()
      invariant item.Some? ==> old(it.Remaining()) == items + [item.value] + it.Remaining()
      invariant item.None? ==> old(it.Remaining()) == items && it.Remaining() == []
      decreases |it.Remaining()| + (if item.Some? then 1 else 0)
    {
      items := items + [item.value];
      item := it.Next();
    }
  }

  /** `Entities`: the slot table indexed by id, the freelist `pending` and the free cursor.
      `pending[..freeCursor]` is still free; the rest of `pending`, and the ids past the table
      when the cursor is negative, are reserved and wait for `flush`. */
  class Entities {
    var meta: seq<EntityMeta>
    var pending: seq<u32>
    var freeCursor: int

    predicate Valid()
      reads this
    {
      |meta| <= HALF && PendingInTable(meta, pending) && freeCursor <= |pending| && NewIdsFit(|meta|, freeCursor)
    }

    /** Every handle reserved since the last flush, as one batch ending at the end of `pending`. */
    function Outstanding(): (handles: seq<Entity>)
      reads this
      requires Valid()
    {
      ReserveBatch(meta, pending, |pending|, |pending| - freeCursor)
    }

    /** `Entities::default()`. */
    constructor ()
      ensures Valid()
      ensures meta == [] && pending == [] && freeCursor == 0
    {
      meta := [];
      pending := [];
      freeCursor := 0;
    }

    /** `needs_flush`: true exactly when some reservation is still outstanding. */
    function NeedsFlush(): (needed: bool)
      reads this
      requires Valid()
      ensures needed <==> Outstanding() != []
    {
      freeCursor != |pending|
    }

    /** `contains`: an id past the table counts as contained, since it can only be a
        reservation that has not been flushed yet. */
    function Contains(e: Entity): (contained: bool)
      reads this
      ensures e.id >= |meta| ==> contained
      ensures e.id < |meta| ==> (contained <==> meta[e.id].generation == e.generation)
    {
      e.id >= |meta| || meta[e.id].generation == e.generation
    }

    /** `get`: the placeholder location for ids past the table and for slots in archetype 0,
        an error for a stale generation, the stored location otherwise. */
    function Get(e: Entity): (r: Result<Location>)
      reads this
      ensures r.Err? <==> !Contains(e)
      ensures r.Ok? && e.id < |meta| && meta[e.id].location.archetype != 0 ==> r.value == meta[e.id].location
      ensures r.Ok? && (e.id >= |meta| || meta[e.id].location.archetype == 0) ==> r.value == PENDING_LOCATION
    {
      if |meta| <= e.id then Ok(Location(0, U32_MAX))
      else if meta[e.id].generation != e.generation then Err(NoSuchEntity)
      else if meta[e.id].location.archetype == 0 then Ok(Location(0, U32_MAX))
      else Ok(meta[e.id].location)
    }

    /** The read half of `get_mut`: the slot's location when the generation matches. */
    function GetMut(e: Entity): (r: Result<Location>)
      reads this
      requires e.id < |meta|
      ensures r.Err? <==> !Contains(e)
      ensures r.Ok? ==> r.value == meta[e.id].location
    {
      var slot := meta[e.id];
      if slot.generation == e.generation then Ok(slot.location) else Err(NoSuchEntity)
    }

    /** The write half of `get_mut`: stores `loc` through the reference it hands out. */
    method SetLocation(e: Entity, loc: Location) returns (r: Result<()>)
      requires Valid()
      requires e.id < |meta|
      modifies this
      ensures Valid()
      ensures r.Err? <==> !old(Contains(e))
      ensures r.Err? ==> meta == old(meta)
      ensures r.Ok? ==> meta == old(meta)[e.id := EntityMeta(e.generation, loc)]
      ensures pending == old(pending) && freeCursor == old(freeCursor)
      ensures GetMut(e) == if r.Ok? then Ok(loc) else Err(NoSuchEntity)
    {
      if meta[e.id].generation == e.generation {
        meta := meta[e.id := EntityMeta(e.generation, loc)];
        r := Ok(());
      } else {
        r := Err(NoSuchEntity);
      }
    }

    /** `resolve_unknown_gen`: the live handle for an id of the table, or generation 0 for an
        id that is reserved past the end of the table. */
    function ResolveUnknownGen(id: u32): (e: Entity)
      reads this
      requires Valid()
      requires id < |meta| + Max(-freeCursor, 0)
      ensures e.id == id && Contains(e)
      ensures id < |meta| ==> e.generation == meta[id].generation
      ensures id >= |meta| ==> e.generation == 0
    {
      if |meta| > id then Entity(meta[id].generation, id) else Entity(0, id)
    }

    /** `resolve_unknown_gen` accepts the id of `e` and gives back exactly `e`. */
    predicate ResolvesTo(e: Entity)
      reads this
      requires Valid()
    {
      e.id < |meta| + Max(-freeCursor, 0) && ResolveUnknownGen(e.id) == e
    }

    /** `reserve_entities`: moves the cursor down by `count` and hands out that batch. */
    method ReserveEntities(count: u32) returns (it: ReserveEntitiesIterator)
      requires Valid()
      requires freeCursor - count >= 0 || |meta| - (freeCursor - count) <= U32_MAX
      modifies this
      ensures Valid() && fresh(it) && it.Valid()
      ensures meta == old(meta) && pending == old(pending) && freeCursor == old(freeCursor) - count
      ensures it.Remaining() == ReserveBatch(meta, pending, old(freeCursor), count)
      ensures it.SizeHint() == (count as nat, Some(count as nat))
      ensures Outstanding() == RecycledPart(meta, pending, freeCursor, old(freeCursor)) + old(Outstanding())
                               + NewPart(|meta|, freeCursor, old(freeCursor))
    {
      var rangeEnd := freeCursor;
      var rangeStart := rangeEnd - count as int;
      freeCursor := rangeStart;
      var newStart, newEnd := 0, 0;
      if rangeStart < 0 {
        var base := |meta|;
        newEnd := base - rangeStart;
        newStart := base - Min(rangeEnd, 0);
      }
      assert (newStart, newEnd) == NewIdBounds(|meta|, rangeStart, rangeEnd);
      it := new ReserveEntitiesIterator(meta, pending[Max(rangeStart, 0)..Max(rangeEnd, 0)], newStart as u32, newEnd as u32);
      ReserveMore(meta, pending, rangeEnd, count as nat);
    }

    /** `reserve_entity`: one handle, the same one `reserve_entities(1)` would yield. */
    method ReserveEntity() returns (e: Entity)
      requires Valid()
      requires freeCursor > 0 || |meta| - freeCursor <= U32_MAX
      modifies this
      ensures Valid()
      ensures meta == old(meta) && pending == old(pending) && freeCursor == old(freeCursor) - 1
      ensures [e] == ReserveBatch(meta, pending, old(freeCursor), 1)
      ensures e == ReserveOne(meta, pending, old(freeCursor))
      ensures Contains(e)
      ensures old(freeCursor) > 0 ==> Outstanding() == [e] + old(Outstanding())
      ensures old(freeCursor) <= 0 ==> Outstanding() == old(Outstanding()) + [e]
    {
      var n := freeCursor;
      freeCursor := n - 1;
      if n > 0 {
        var id := pending[n - 1];
        e := Entity(meta[id].generation, id);
      } else {
        e := Entity(0, |meta| - n);
      }
      ReserveOneMore(meta, pending, n);
    }

    /** `alloc`: pops the freelist if it can, otherwise appends an empty slot. */
    method Alloc() returns (e: Entity)
      requires Valid() && !NeedsFlush()
      requires |pending| > 0 || |meta| <= U32_MAX
      modifies this
      ensures Valid() && !NeedsFlush()
      ensures old(|pending|) > 0 ==>
        e == Entity(old(meta[pending[|pending| - 1]].generation), old(pending[|pending| - 1])) &&
        meta == old(meta) && pending == old(pending[..|pending| - 1])
      ensures old(|pending|) == 0 ==>
        e == Entity(0, old(|meta|)) && meta == old(meta) + [EMPTY] && pending == []
      ensures e.id < |meta| && Contains(e)
    {
      if |pending| > 0 {
        var id := pending[|pending| - 1];
        pending := pending[..|pending| - 1];
        freeCursor := |pending|;
        e := Entity(meta[id].generation, id);
      } else {
        var id := |meta|;
        meta := meta + [EMPTY];
        e := Entity(0, id);
      }
    }

    /** `free`: a stale handle is an error and changes nothing; a live one bumps the slot's
        generation, clears its location and puts the id on the freelist. */
    method Free(e: Entity) returns (r: Result<Location>)
      requires Valid() && !NeedsFlush()
      requires e.id < |meta|
      modifies this
      ensures Valid() && !NeedsFlush()
      ensures r.Err? <==> !old(Contains(e))
      ensures r.Err? ==> meta == old(meta) && pending == old(pending)
      ensures r.Ok? ==> r.value == old(meta[e.id].location)
      ensures r.Ok? ==> meta == old(meta)[e.id := EntityMeta(NextGeneration(e.generation), PENDING_LOCATION)]
      ensures r.Ok? ==> pending == old(pending) + [e.id]
      ensures !Contains(e)
      ensures old(NoDuplicates(pending)) && e.id !in old(pending) ==> NoDuplicates(pending)
    {
      if meta[e.id].generation != e.generation {
        r := Err(NoSuchEntity);
        return;
      }
      var loc := meta[e.id].location;
      meta := meta[e.id := EntityMeta(NextGeneration(e.generation), EMPTY.location)];
      pending := pending + [e.id];
      freeCursor := |pending|;
      r := Ok(loc);
    }

    /** `clear`: forgets every slot and every reservation. */
    method Clear()
      requires Valid()
      modifies this
      ensures Valid() && !NeedsFlush()
      ensures meta == [] && pending == [] && freeCursor == 0
    {
      meta := [];
      pending := [];
      freeCursor := 0;
    }

    /** `flush`: gives every outstanding reservation a slot, then calls `init` on each of their
        locations; the result lists the ids in the order `init` saw them. */
    method Flush(init: (u32, Location) -> Location) returns (visited: seq<u32>)
      requires Valid()
      modifies this
      ensures Valid() && !NeedsFlush() && Outstanding() == []
      ensures visited == FlushOrder(old(|meta|), old(pending), old(freeCursor))
      ensures meta == InitSlots(Resized(old(meta), old(freeCursor)), visited, init)
      ensures old(freeCursor) >= 0 ==> pending == old(pending[..freeCursor])
      ensures old(freeCursor) < 0 ==> pending == []
    {
      ghost var oldMeta, oldPending, oldCursor := meta, pending, freeCursor;
      var m := meta;
      visited := [];
      var newFreeCursor: nat;
      if freeCursor >= 0 {
        newFreeCursor := freeCursor;
      } else {
        var oldLen := |m|;
        m := m + Empties(-freeCursor);
        m, visited := InitNewSlots(m, oldLen, init);
        freeCursor := 0;
        newFreeCursor := 0;
        assert pending[0..] == pending;
      }
      ghost var grown := Resized(oldMeta, oldCursor);
      m, visited := InitDrained(grown, visited, m, pending[newFreeCursor..], init);
      meta := m;
      pending := pending[..newFreeCursor];
      EmptyBatch(meta, pending, |pending|);
    }
  }

  /** The table once `flush` has made room for the new ids reserved below a negative cursor:
      the old slots unchanged, followed by one empty slot per new id. */
  function Resized(meta: seq<EntityMeta>, cursor: int): (grown: seq<EntityMeta>)
    ensures |grown| == |meta| + Max(-cursor, 0)
    ensures grown[..|meta|] == meta
    ensures forall k :: |meta| <= k < |grown| ==> grown[k] == EMPTY
  {
    if cursor < 0 then meta + Empties(-cursor) else meta
  }

  /** After `flush`, every handle that was reserved before it names a slot of its own and is
      contained: the table has grown by the new ids and `init` only rewrites locations. */
  lemma FlushLeavesOutstandingLive(meta: seq<EntityMeta>, pending: seq<u32>, cursor: int,
                                   init: (u32, Location) -> Location)
    requires PendingInTable(meta, pending) && |meta| <= HALF
    requires cursor <= |pending|
    requires NewIdsFit(|meta|, cursor)
    ensures forall e :: e in ReserveBatch(meta, pending, |pending|, |pending| - cursor) ==>
      LiveIn(InitSlots(Resized(meta, cursor), FlushOrder(|meta|, pending, cursor), init), e)
  {
    var grown := Resized(meta, cursor);
    FlushedHandlesLive(meta, pending, cursor, grown);
    StillLive(ReserveBatch(meta, pending, |pending|, |pending| - cursor), grown,
              InitSlots(grown, FlushOrder(|meta|, pending, cursor), init));
  }

  /** Handles whose slots are live stay live when only locations change. */
  lemma StillLive(handles: seq<Entity>, before: seq<EntityMeta>, after: seq<EntityMeta>)
    requires forall e :: e in handles ==> LiveIn(before, e)
    requires |after| == |before|
    requires forall k :: 0 <= k < |before| ==> after[k].generation == before[k].generation
    ensures forall e :: e in handles ==> LiveIn(after, e)
  {
  }

  /** The first loop of `flush`: `init` on each slot from `oldLen` on, in ascending id order. */
  method InitNewSlots(m: seq<EntityMeta>, oldLen: nat, init: (u32, Location) -> Location)
    returns (r: seq<EntityMeta>, ids: seq<u32>)
    requires oldLen <= |m| <= HALF
    ensures ids == IdRange(oldLen, |m|)
    ensures r == InitSlots(m, ids, init)
  {
    r, ids := m, [];
    for id := oldLen to |m|
      invariant |r| == |m|
      invariant ids == IdRange(oldLen, id)
      invariant r == InitSlots(m, ids, init)
    {
      r := r[id := EntityMeta(r[id].generation, init(id as u32, r[id].location))];
      assert ids + [id as u32] == IdRange(oldLen, id + 1);
      assert (ids + [id as u32])[..|ids|] == ids;
      ids := ids + [id as u32];
    }
  }

  /** The draining loop of `flush`: `init` on each id of `ids` in turn, continuing a table that
      has already been initialised along `done`. */
  method InitDrained(ghost m0: seq<EntityMeta>, done: seq<u32>, m: seq<EntityMeta>, ids: seq<u32>,
                     init: (u32, Location) -> Location)
    returns (r: seq<EntityMeta>, visited: seq<u32>)
    requires forall i :: 0 <= i < |done| ==> done[i] < |m0|
    requires forall i :: 0 <= i < |ids| ==> ids[i] < |m0|
    requires m == InitSlots(m0, done, init)
    ensures visited == done + ids
    ensures r == InitSlots(m0, visited, init)
  {
    r, visited := m, done;
    for i := 0 to |ids|
      invariant |r| == |m0|
      invariant visited == done + ids[..i]
      invariant forall k :: 0 <= k < |visited| ==> visited[k] < |m0|
      invariant r == InitSlots(m0, visited, init)
    {
      var id := ids[i];
      r := r[id := EntityMeta(r[id].generation, init(id, r[id].location))];
      assert ids[..i + 1] == ids[..i] + [id];
      AppendOne(done, ids[..i], id);
      assert (visited + [id])[..|visited|] == visited;
      visited := visited + [id];
    }
    assert ids[..|ids|] == ids;
  }

  /** Every reservation not yet flushed is contained, and `resolve_unknown_gen` recovers its
      handle from the id alone. */
  lemma OutstandingResolved(ents: Entities)
    requires ents.Valid()
    ensures forall e :: e in ents.Outstanding() ==> ents.Contains(e) && ents.ResolvesTo(e)
  {
    BatchHandles(ents.meta, ents.pending, |ents.pending|, |ents.pending| - ents.freeCursor);
  }

  /** `get` and `get_mut` agree on a slot of the table, except that `get` reports archetype 0
      as the placeholder location. */
  lemma GetAgreesWithGetMut(ents: Entities, e: Entity)
    requires e.id < |ents.meta|
    ensures ents.Get(e).Err? == ents.GetMut(e).Err?
    ensures ents.GetMut(e).Ok? && ents.GetMut(e).value.archetype != 0 ==> ents.Get(e) == ents.GetMut(e)
  {
  }
}

=== FILE: handles.dfy ===
/** Entity handles: a (generation, id) pair, its packed 64-bit form and its derived ordering
    (src/entities.rs, `Entity`). */
module Handles {

  /** Largest value of a Rust `u32`. */
  const U32_MAX: int := 0xFFFF_FFFF

  /** 2^32: one more than `U32_MAX`, the weight of the high half of a packed handle. */
  const HALF: int := 0x1_0000_0000

  type u32 = x: int | 0 <= x < 0x1_0000_0000
  type u64 = x: int | 0 <= x < 0x1_0000_0000_0000_0000

  /** A lightweight handle. The field order (generation first) is what the derived `Ord` of the
      source follows, so it is kept here. */
  datatype Entity = Entity(generation: u32, id: u32)

  /** `to_bits`: the generation in the high 32 bits, the id in the low 32 bits. Because both
      halves are below 2^32, `g << 32 | i` on 64-bit words is the sum `g * 2^32 + i` on 64-bit
      words (see `ShiftOrIsPacking`); the model computes that sum on integers. */
  function ToBits(e: Entity): (bits: u64)
    ensures bits / HALF == e.generation && bits % HALF == e.id
  {
    e.generation * HALF + e.id
  }

  /** `from_bits`: `bits >> 32` for the generation and the truncating cast `bits as u32` for the
      id (see `ShiftTruncateIsSplitting`). */
  function FromBits(bits: u64): (e: Entity)
    ensures e.generation * HALF + e.id == bits
  {
    Entity(bits / HALF, bits % HALF)
  }

  /** `id()`: the bare id, which is the low half of the packed form. */
  function Id(e: Entity): (id: u32)
    ensures id == ToBits(e) % HALF
  {
    e.id
  }

  /** Result of a three-way comparison, as Rust's `core::cmp::Ordering`. */
  datatype Ordering = Less | Equal | Greater

  /** The derived `Ord` of `Entity`: lexicographic over the fields in declaration order, that is
      generation first and id only to break ties. It agrees with the numeric order of the packed
      form, since the generation sits in the high half. */
  function Compare(a: Entity, b: Entity): (o: Ordering)
    ensures o == Less <==> ToBits(a) < ToBits(b)
    ensures o == Equal <==> a == b
    ensures o == Greater <==> ToBits(a) > ToBits(b)
  {
    if a.generation < b.generation then Less
    else if a.generation > b.generation then Greater
    else if a.id < b.id then Less
    else if a.id > b.id then Greater
    else Equal
  }

  /** `from_bits` undoes `to_bits` for every generation and id. */
  lemma FromBitsToBits(e: Entity)
    ensures FromBits(ToBits(e)) == e
  {
  }

  /** `to_bits` undoes `from_bits`: every 64-bit value is the packed form of exactly one handle. */
  lemma ToBitsFromBits(bits: u64)
    ensures ToBits(FromBits(bits)) == bits
  {
  }

  /** The round trip on the handle of the source's `entity_bits_roundtrip` test. */
  lemma RoundTripExample()
    ensures FromBits(ToBits(Entity(0xDEAD_BEEF, 0xBAAD_F00D))) == Entity(0xDEAD_BEEF, 0xBAAD_F00D)
    ensures ToBits(Entity(0xDEAD_BEEF, 0xBAAD_F00D)) == 0xDEAD_BEEF_BAAD_F00D
  {
  }

  /** The source's `u64::from(g) << 32 | u64::from(i)`, computed on 64-bit words, equals the
      packing `g * 2^32 + i` used by `ToBits`. */
  lemma ShiftOrIsPacking(g: bv32, i: bv32)
    ensures ((g as bv64) << 32) | (i as bv64) == (g as bv64) * 0x1_0000_0000 + (i as bv64)
  {
  }

  /** The source's `(bits >> 32) as u32` and `bits as u32` are the quotient and remainder by 2^32
      used by `FromBits`; the truncating cast keeps the low 32 bits, `bits & 0xFFFF_FFFF`. */
  lemma ShiftTruncateIsSplitting(bits: bv64)
    ensures bits >> 32 == bits / 0x1_0000_0000
    ensures bits & 0xFFFF_FFFF == bits % 0x1_0000_0000
  {
  }

  /** Whatever the ids, the handle with the higher generation is the greater one, both in the
      derived order and in the packed 64-bit value: the generation decides. */
  lemma GenerationDominatesOrder(a: Entity, b: Entity)
    requires a.generation > b.generation
    ensures Compare(a, b) == Greater && ToBits(a) > ToBits(b)
  {
  }
}

=== FILE: reservation.dfy ===
/** The arithmetic of the free cursor (src/entities.rs:92-197, 334-363), on plain values.

    Reservations move the cursor down an integer line. A position `p >= 0` names `pending[p]`,
    a recycled id; a position `p < 0` names the brand-new id `|meta| - p - 1`. A call that moves
    the cursor from `end` to `end - count` is handed the positions `[end - count, end)`. */
module Reservation {
  import opened Handles
  import opened Slots

  function Max(a: int, b: int): (m: int) { if a >= b then a else b }
  function Min(a: int, b: int): (m: int) { if a <= b then a else b }

  /** Every recycled id names an existing slot. */
  predicate PendingInTable(meta: seq<EntityMeta>, pending: seq<u32>)
  {
    forall i :: 0 <= i < |pending| ==> pending[i] < |meta|
  }

  /** The brand-new ids handed out for positions down to `rangeStart` are all below 2^32. */
  predicate NewIdsFit(metaLen: int, rangeStart: int)
  {
    rangeStart >= 0 || metaLen - rangeStart <= HALF
  }

  /** The ids of a sequence of handles, in order. */
  function Ids(s: seq<Entity>): (ids: seq<u32>)
    ensures |ids| == |s|
    ensures forall k :: 0 <= k < |s| ==> ids[k] == s[k].id
  {
    seq(|s|, k requires 0 <= k < |s| => s[k].id)
  }

  /** The ids `lo, lo + 1, ..., hi - 1`. */
  function IdRange(lo: int, hi: int): (ids: seq<u32>)
    requires 0 <= lo <= hi <= HALF
    ensures |ids| == hi - lo
    ensures forall j :: 0 <= j < hi - lo ==> ids[j] == lo + j
  {
    seq(hi - lo, j requires 0 <= j < hi - lo => lo + j)
  }

  /** Recycled ids with the current generation of their slots. */
  function Recycled(meta: seq<EntityMeta>, ids: seq<u32>): (r: seq<Entity>)
    requires forall i :: 0 <= i < |ids| ==> ids[i] < |meta|
    ensures |r| == |ids|
  {
    if |ids| == 0 then [] else [Entity(meta[ids[0]].generation, ids[0])] + Recycled(meta, ids[1..])
  }

  /** Brand-new ids `lo .. hi`, each with generation 0. */
  function Fresh(lo: int, hi: int): (r: seq<Entity>)
    requires 0 <= lo <= hi <= HALF
    ensures |r| == hi - lo
    decreases hi - lo
  {
    if lo == hi then [] else [Entity(0, lo)] + Fresh(lo + 1, hi)
  }

  lemma {:induction false} RecycledElements(meta: seq<EntityMeta>, ids: seq<u32>)
    requires forall i :: 0 <= i < |ids| ==> ids[i] < |meta|
    ensures forall k :: 0 <= k < |ids| ==> Recycled(meta, ids)[k] == Entity(meta[ids[k]].generation, ids[k])
  {
    if |ids| > 0 {
      RecycledElements(meta, ids[1..]);
    }
  }

  lemma {:induction false} FreshElements(lo: int, hi: int)
    requires 0 <= lo <= hi <= HALF
    ensures forall j :: 0 <= j < hi - lo ==> Fresh(lo, hi)[j] == Entity(0, lo + j)
    decreases hi - lo
  {
    if lo < hi {
      FreshElements(lo + 1, hi);
    }
  }

  /** The bounds `(new_id_start, new_id_end)` of the brand-new ids for the positions
      `[rangeStart, rangeEnd)`: none when the range stays non-negative, else the negative part of
      the range mirrored past the end of the table. */
  function NewIdBounds(metaLen: nat, rangeStart: int, rangeEnd: int): (bounds: (int, int))
    requires rangeStart <= rangeEnd
    requires NewIdsFit(metaLen, rangeStart)
    ensures 0 <= bounds.0 <= bounds.1 <= HALF
    ensures bounds.1 - bounds.0 == (rangeEnd - rangeStart) - (Max(rangeEnd, 0) - Max(rangeStart, 0))
    ensures rangeStart < 0 ==> bounds.0 >= metaLen
  {
    if rangeStart >= 0 then (0, 0)
    else (metaLen - Min(rangeEnd, 0), metaLen - rangeStart)
  }

  /** The recycled ids a reservation of the positions `[rangeStart, rangeEnd)` hands out,
      `pending[max(start, 0) .. max(end, 0))`, with their slots' current generations. */
  function RecycledPart(meta: seq<EntityMeta>, pending: seq<u32>, rangeStart: int, rangeEnd: int): (r: seq<Entity>)
    requires PendingInTable(meta, pending)
    requires rangeStart <= rangeEnd <= |pending|
    ensures |r| == Max(rangeEnd, 0) - Max(rangeStart, 0)
  {
    Recycled(meta, pending[Max(rangeStart, 0)..Max(rangeEnd, 0)])
  }

  /** The brand-new ids a reservation of the positions `[rangeStart, rangeEnd)` hands out. */
  function NewPart(metaLen: nat, rangeStart: int, rangeEnd: int): (r: seq<Entity>)
    requires rangeStart <= rangeEnd
    requires NewIdsFit(metaLen, rangeStart)
  {
    Fresh(NewIdBounds(metaLen, rangeStart, rangeEnd).0, NewIdBounds(metaLen, rangeStart, rangeEnd).1)
  }

  /** What `reserve_entities(count)` yields when the cursor stood at `rangeEnd`: the recycled
      ids `pending[max(start, 0) .. max(end, 0))` first, then the new ids
      `|meta| - min(end, 0) .. |meta| - start`. */
  function ReserveBatch(meta: seq<EntityMeta>, pending: seq<u32>, rangeEnd: int, count: nat): (r: seq<Entity>)
    requires PendingInTable(meta, pending)
    requires rangeEnd <= |pending|
    requires NewIdsFit(|meta|, rangeEnd - count)
    ensures |r| == count
  {
    RecycledPart(meta, pending, rangeEnd - count, rangeEnd) + NewPart(|meta|, rangeEnd - count, rangeEnd)
  }

  /** What the table knows of a handle `e` it gave out: the current generation of a slot of
      `meta`, or generation 0 for a new id below `newEnd`. */
  predicate Vouched(meta: seq<EntityMeta>, newEnd: int, e: Entity)
  {
    if e.id < |meta| then e.generation == meta[e.id].generation else e.generation == 0 && e.id < newEnd
  }

  /** `e` names a slot of `m` and carries that slot's generation. */
  predicate LiveIn(m: seq<EntityMeta>, e: Entity)
  {
    e.id < |m| && m[e.id].generation == e.generation
  }

  /** Every handle a batch yields is either backed by a slot whose generation it carries, or a
      brand-new id of generation 0 below `|meta| - start`. */
  lemma BatchHandles(meta: seq<EntityMeta>, pending: seq<u32>, rangeEnd: int, count: nat)
    requires PendingInTable(meta, pending)
    requires rangeEnd <= |pending|
    requires NewIdsFit(|meta|, rangeEnd - count)
    ensures forall e :: e in ReserveBatch(meta, pending, rangeEnd, count) ==>
              Vouched(meta, |meta| - (rangeEnd - count), e)
  {
    var rangeStart := rangeEnd - count;
    RecycledElements(meta, pending[Max(rangeStart, 0)..Max(rangeEnd, 0)]);
    FreshElements(NewIdBounds(|meta|, rangeStart, rangeEnd).0, NewIdBounds(|meta|, rangeStart, rangeEnd).1);
  }

  /** What `reserve_entity()` returns when the cursor stood at `n`: `pending[n - 1]` with its
      slot's generation while the freelist lasts, else the new id `|meta| - n` with generation 0.
      As the source documents, it is the first item of a batch of one (`BatchOfOne`). */
  function ReserveOne(meta: seq<EntityMeta>, pending: seq<u32>, n: int): (e: Entity)
    requires PendingInTable(meta, pending)
    requires n <= |pending|
    requires NewIdsFit(|meta|, n - 1)
    ensures Vouched(meta, |meta| - (n - 1), e)
    ensures n > 0 <==> e.id < |meta|
  {
    if n > 0 then Entity(meta[pending[n - 1]].generation, pending[n - 1])
    else Entity(0, |meta| - n)
  }

  /** The order in which `flush` calls `init`: first the new ids `metaLen .. metaLen - cursor`
      when the cursor is negative, in ascending order, then the drained tail of `pending`. */
  function FlushOrder(metaLen: nat, pending: seq<u32>, cursor: int): (order: seq<u32>)
    requires forall i :: 0 <= i < |pending| ==> pending[i] < metaLen
    requires cursor <= |pending|
    requires NewIdsFit(metaLen, cursor) && metaLen <= HALF
    ensures forall i :: 0 <= i < |order| ==> order[i] < metaLen + Max(-cursor, 0)
    ensures NoDuplicates(pending) ==> NoDuplicates(order)
  {
    if cursor >= 0 then pending[cursor..]
    else IdRange(metaLen, metaLen - cursor) + pending
  }

  lemma SliceSplit(s: seq<u32>, a: nat, b: nat, c: nat)
    requires a <= b <= c <= |s|
    ensures s[a..c] == s[a..b] + s[b..c]
  {
  }

  lemma {:induction false} RecycledConcat(meta: seq<EntityMeta>, x: seq<u32>, y: seq<u32>)
    requires forall i :: 0 <= i < |x| ==> x[i] < |meta|
    requires forall i :: 0 <= i < |y| ==> y[i] < |meta|
    ensures Recycled(meta, x + y) == Recycled(meta, x) + Recycled(meta, y)
  {
    RecycledElements(meta, x + y);
    RecycledElements(meta, x);
    RecycledElements(meta, y);
  }

  lemma {:induction false} FreshConcat(lo: int, mid: int, hi: int)
    requires 0 <= lo <= mid <= hi <= HALF
    ensures Fresh(lo, hi) == Fresh(lo, mid) + Fresh(mid, hi)
    decreases mid - lo
  {
    if lo < mid {
      FreshConcat(lo + 1, mid, hi);
    }
  }

  /** The recycled part of a reservation, split where an intermediate cursor `m` falls. */
  lemma RecycledSplit(meta: seq<EntityMeta>, pending: seq<u32>, s: int, m: int, end: int)
    requires PendingInTable(meta, pending)
    requires s <= m <= end <= |pending|
    ensures RecycledPart(meta, pending, s, end) == RecycledPart(meta, pending, s, m) + RecycledPart(meta, pending, m, end)
  {
    var A, B, C := Max(s, 0), Max(m, 0), Max(end, 0);
    SliceSplit(pending, A, B, C);
    RecycledConcat(meta, pending[A..B], pending[B..C]);
  }

  /** The brand-new part of a reservation, split where an intermediate cursor `m` falls: the
      earlier reservation (positions above `m`) gets the lower new ids. */
  lemma NewIdsSplit(metaLen: nat, s: int, m: int, end: int)
    requires s <= m <= end
    requires NewIdsFit(metaLen, s)
    ensures NewIdsFit(metaLen, m)
    ensures NewPart(metaLen, s, end) == NewPart(metaLen, m, end) + NewPart(metaLen, s, m)
  {
    if s < 0 && m < 0 {
      FreshConcat(metaLen - Min(end, 0), metaLen - m, metaLen - s);
    }
  }

  /** The positions `[s, end)` are the positions `[m, end)` followed below by `[s, m)`: one
      reservation down to `s` hands out what a reservation down to `m` and a later one down
      to `s` hand out, regrouped as the later one's recycled ids, then the earlier batch, then
      the later one's new ids. The single subtraction of `reserve_entities` thus partitions
      the cursor line. */
  lemma BatchSplit(meta: seq<EntityMeta>, pending: seq<u32>, s: int, m: int, end: int)
    requires PendingInTable(meta, pending)
    requires s <= m <= end <= |pending|
    requires NewIdsFit(|meta|, s)
    ensures NewIdsFit(|meta|, m)
    ensures ReserveBatch(meta, pending, end, end - s)
         == RecycledPart(meta, pending, s, m) + ReserveBatch(meta, pending, end, end - m) + NewPart(|meta|, s, m)
  {
    var L := |meta|;
    RecycledSplit(meta, pending, s, m, end);
    NewIdsSplit(L, s, m, end);
    BatchParts(meta, pending, end, end - s, s);
    BatchParts(meta, pending, end, end - m, m);
    Regroup(RecycledPart(meta, pending, s, m), RecycledPart(meta, pending, m, end), NewPart(L, m, end), NewPart(L, s, m));
  }

  /** A batch is its recycled part followed by its brand-new part. */
  lemma BatchParts(meta: seq<EntityMeta>, pending: seq<u32>, rangeEnd: int, count: nat, rangeStart: int)
    requires PendingInTable(meta, pending)
    requires rangeEnd <= |pending|
    requires rangeStart == rangeEnd - count
    requires NewIdsFit(|meta|, rangeStart)
    ensures ReserveBatch(meta, pending, rangeEnd, count)
         == RecycledPart(meta, pending, rangeStart, rangeEnd) + NewPart(|meta|, rangeStart, rangeEnd)
  {
  }

  lemma Regroup(lower: seq<Entity>, upper: seq<Entity>, near: seq<Entity>, far: seq<Entity>)
    ensures (lower + upper) + (near + far) == lower + (upper + near) + far
  {
  }

  /** The ids of the recycled part are the slice of `pending` it covers. */
  lemma RecycledIds(meta: seq<EntityMeta>, pending: seq<u32>, rangeStart: int, rangeEnd: int)
    requires PendingInTable(meta, pending)
    requires rangeStart <= rangeEnd <= |pending|
    ensures Ids(RecycledPart(meta, pending, rangeStart, rangeEnd)) == pending[Max(rangeStart, 0)..Max(rangeEnd, 0)]
  {
    RecycledElements(meta, pending[Max(rangeStart, 0)..Max(rangeEnd, 0)]);
  }

  /** The ids of the brand-new part are consecutive. */
  lemma NewIds(metaLen: nat, rangeStart: int, rangeEnd: int)
    requires rangeStart <= rangeEnd
    requires NewIdsFit(metaLen, rangeStart)
    ensures Ids(NewPart(metaLen, rangeStart, rangeEnd))
         == IdRange(NewIdBounds(metaLen, rangeStart, rangeEnd).0, NewIdBounds(metaLen, rangeStart, rangeEnd).1)
  {
    FreshElements(NewIdBounds(metaLen, rangeStart, rangeEnd).0, NewIdBounds(metaLen, rangeStart, rangeEnd).1);
  }

  lemma IdsConcat(x: seq<Entity>, y: seq<Entity>)
    ensures Ids(x + y) == Ids(x) + Ids(y)
  {
  }

  /** The ids of a batch: the recycled slice of `pending`, then the consecutive new ids. */
  lemma BatchIds(meta: seq<EntityMeta>, pending: seq<u32>, rangeEnd: int, count: nat)
    requires PendingInTable(meta, pending)
    requires rangeEnd <= |pending|
    requires NewIdsFit(|meta|, rangeEnd - count)
    ensures Ids(ReserveBatch(meta, pending, rangeEnd, count))
         == pending[Max(rangeEnd - count, 0)..Max(rangeEnd, 0)]
          + IdRange(NewIdBounds(|meta|, rangeEnd - count, rangeEnd).0, NewIdBounds(|meta|, rangeEnd - count, rangeEnd).1)
  {
    var rangeStart := rangeEnd - count;
    IdsConcat(RecycledPart(meta, pending, rangeStart, rangeEnd), NewPart(|meta|, rangeStart, rangeEnd));
    RecycledIds(meta, pending, rangeStart, rangeEnd);
    NewIds(|meta|, rangeStart, rangeEnd);
  }

  /** No id is handed out twice by one batch, provided no id is recycled twice. */
  lemma BatchIdsDistinct(meta: seq<EntityMeta>, pending: seq<u32>, rangeEnd: int, count: nat)
    requires PendingInTable(meta, pending) && NoDuplicates(pending)
    requires rangeEnd <= |pending|
    requires NewIdsFit(|meta|, rangeEnd - count)
    ensures NoDuplicates(Ids(ReserveBatch(meta, pending, rangeEnd, count)))
  {
    BatchIds(meta, pending, rangeEnd, count);
  }

  /** No id of `x` occurs in `y`. */
  predicate Disjoint(x: seq<u32>, y: seq<u32>)
  {
    forall id :: id in x ==> id !in y
  }

  /** Two non-overlapping stretches of a duplicate-free freelist share no id. */
  lemma SliceDisjoint(pending: seq<u32>, lo: nat, mid: nat, hi: nat)
    requires NoDuplicates(pending)
    requires lo <= mid <= hi <= |pending|
    ensures Disjoint(pending[mid..hi], pending[lo..mid])
  {
    forall id | id in pending[mid..hi]
      ensures id !in pending[lo..mid]
    {
      var i :| 0 <= i < hi - mid && pending[mid..hi][i] == id;
      forall j | 0 <= j < mid - lo
        ensures pending[lo..mid][j] != id
      {
        assert pending[lo..mid][j] == pending[lo + j] && pending[mid..hi][i] == pending[mid + i];
      }
    }
  }

  /** Recycled ids are below the table's length. */
  lemma SliceBelow(meta: seq<EntityMeta>, pending: seq<u32>, lo: nat, hi: nat)
    requires PendingInTable(meta, pending)
    requires lo <= hi <= |pending|
    ensures forall id :: id in pending[lo..hi] ==> id < |meta|
  {
  }

  /** Brand-new ids are at or above the table's length. */
  lemma NewIdsAbove(metaLen: nat, rangeStart: int, rangeEnd: int)
    requires rangeStart <= rangeEnd
    requires NewIdsFit(metaLen, rangeStart)
    ensures forall id :: id in IdRange(NewIdBounds(metaLen, rangeStart, rangeEnd).0, NewIdBounds(metaLen, rangeStart, rangeEnd).1)
              ==> id >= metaLen
  {
  }

  lemma IdRangeDisjoint(lo1: int, hi1: int, lo2: int, hi2: int)
    requires 0 <= lo1 <= hi1 <= lo2 <= hi2 <= HALF
    ensures Disjoint(IdRange(lo1, hi1), IdRange(lo2, hi2))
  {
  }

  /** Recycled-then-new sequences whose recycled parts and whose new parts are pairwise
      disjoint are disjoint, since recycled ids lie below `bound` and new ids at or above it. */
  lemma DisjointConcat(old1: seq<u32>, new1: seq<u32>, old2: seq<u32>, new2: seq<u32>, bound: int)
    requires Disjoint(old1, old2) && Disjoint(new1, new2)
    requires forall id :: id in old1 ==> id < bound
    requires forall id :: id in old2 ==> id < bound
    requires forall id :: id in new1 ==> id >= bound
    requires forall id :: id in new2 ==> id >= bound
    ensures Disjoint(old1 + new1, old2 + new2)
  {
  }

  /** Two reservations in a row (the cursor going from `end` to `end - a`, then to
      `end - a - b`) never hand out the same id, provided no id is recycled twice. */
  lemma SuccessiveBatchesDisjoint(meta: seq<EntityMeta>, pending: seq<u32>, end: int, a: nat, b: nat)
    requires PendingInTable(meta, pending) && NoDuplicates(pending)
    requires end <= |pending|
    requires NewIdsFit(|meta|, end - a - b)
    ensures NewIdsFit(|meta|, end - a)
    ensures Disjoint(Ids(ReserveBatch(meta, pending, end, a)), Ids(ReserveBatch(meta, pending, end - a, b)))
  {
    var s, m, L := end - a - b, end - a, |meta|;
    var lo, mid, hi := Max(s, 0), Max(m, 0), Max(end, 0);
    var upper, lower := NewIdBounds(L, m, end), NewIdBounds(L, s, m);
    BatchIds(meta, pending, end, a);
    BatchIds(meta, pending, m, b);
    SliceDisjoint(pending, lo, mid, hi);
    SliceBelow(meta, pending, mid, hi);
    SliceBelow(meta, pending, lo, mid);
    NewIdsAbove(L, m, end);
    NewIdsAbove(L, s, m);
    IdRangeDisjoint(upper.0, upper.1, lower.0, lower.1);
    DisjointConcat(pending[mid..hi], IdRange(upper.0, upper.1), pending[lo..mid], IdRange(lower.0, lower.1), L);
  }

  lemma BatchOfOne(meta: seq<EntityMeta>, pending: seq<u32>, end: int)
    requires PendingInTable(meta, pending)
    requires end <= |pending|
    requires NewIdsFit(|meta|, end - 1)
    ensures ReserveBatch(meta, pending, end, 1) == [ReserveOne(meta, pending, end)]
  {
  }

  /** A reservation of one from `end` is the single handle `reserve_entity` returns, taken
      from the freelist while `end > 0` and brand-new otherwise. */
  lemma OneParts(meta: seq<EntityMeta>, pending: seq<u32>, end: int)
    requires PendingInTable(meta, pending)
    requires end <= |pending|
    requires NewIdsFit(|meta|, end - 1)
    ensures end > 0 ==>
      RecycledPart(meta, pending, end - 1, end) == [ReserveOne(meta, pending, end)] &&
      NewPart(|meta|, end - 1, end) == []
    ensures end <= 0 ==>
      RecycledPart(meta, pending, end - 1, end) == [] &&
      NewPart(|meta|, end - 1, end) == [ReserveOne(meta, pending, end)]
  {
  }

  /** A reservation of nothing hands out nothing. */
  lemma EmptyBatch(meta: seq<EntityMeta>, pending: seq<u32>, end: int)
    requires PendingInTable(meta, pending)
    requires end <= |pending|
    requires NewIdsFit(|meta|, end)
    ensures ReserveBatch(meta, pending, end, 0) == []
  {
  }

  /** Moving the cursor down by `count` hands out the batch below it and adds that batch to
      what is outstanding: its freelist part in front, its new ids behind. */
  lemma {:induction false} ReserveMore(meta: seq<EntityMeta>, pending: seq<u32>, cursor: int, count: nat)
    requires PendingInTable(meta, pending)
    requires cursor <= |pending|
    requires NewIdsFit(|meta|, cursor - count)
    ensures NewIdsFit(|meta|, cursor)
    ensures ReserveBatch(meta, pending, cursor, count)
         == Recycled(meta, pending[Max(cursor - count, 0)..Max(cursor, 0)])
          + Fresh(NewIdBounds(|meta|, cursor - count, cursor).0, NewIdBounds(|meta|, cursor - count, cursor).1)
    ensures ReserveBatch(meta, pending, |pending|, |pending| - (cursor - count))
         == RecycledPart(meta, pending, cursor - count, cursor) + ReserveBatch(meta, pending, |pending|, |pending| - cursor)
          + NewPart(|meta|, cursor - count, cursor)
  {
    BatchParts(meta, pending, cursor, count, cursor - count);
    BatchSplit(meta, pending, cursor - count, cursor, |pending|);
  }

  /** `reserve_entity` from cursor `n`: the handle is the batch of one, and joins the
      outstanding reservations in front (freelist) or behind (new id). */
  lemma ReserveOneMore(meta: seq<EntityMeta>, pending: seq<u32>, n: int)
    requires PendingInTable(meta, pending)
    requires n <= |pending|
    requires NewIdsFit(|meta|, n - 1)
    ensures NewIdsFit(|meta|, n)
    ensures ReserveBatch(meta, pending, n, 1) == [ReserveOne(meta, pending, n)]
    ensures n > 0 ==>
      ReserveBatch(meta, pending, |pending|, |pending| - (n - 1))
      == [ReserveOne(meta, pending, n)] + ReserveBatch(meta, pending, |pending|, |pending| - n)
    ensures n <= 0 ==>
      ReserveBatch(meta, pending, |pending|, |pending| - (n - 1))
      == ReserveBatch(meta, pending, |pending|, |pending| - n) + [ReserveOne(meta, pending, n)]
  {
    BatchOfOne(meta, pending, n);
    OneParts(meta, pending, n);
    ReserveMore(meta, pending, n, 1);
  }

  lemma AppendOne(prefix: seq<u32>, rest: seq<u32>, id: u32)
    ensures (prefix + rest) + [id] == prefix + (rest + [id])
  {
  }

  /** Once the table has grown by the reserved new ids, each with generation 0, and kept every
      old generation, every handle of the outstanding batch names a live slot. */
  lemma FlushedHandlesLive(meta: seq<EntityMeta>, pending: seq<u32>, cursor: int, grown: seq<EntityMeta>)
    requires PendingInTable(meta, pending)
    requires cursor <= |pending|
    requires NewIdsFit(|meta|, cursor)
    requires |grown| == |meta| + Max(-cursor, 0)
    requires forall k :: 0 <= k < |meta| ==> grown[k].generation == meta[k].generation
    requires forall k :: |meta| <= k < |grown| ==> grown[k].generation == 0
    ensures forall e :: e in ReserveBatch(meta, pending, |pending|, |pending| - cursor) ==> LiveIn(grown, e)
  {
    BatchHandles(meta, pending, |pending|, |pending| - cursor);
  }

  /** `flush` calls `init` on the brand-new ids reserved since the last flush, in ascending
      order, then on the recycled ones, in freelist order: exactly the two parts of the one batch
      that covers the positions `[cursor, |pending|)`. */
  lemma FlushVisitsOutstanding(meta: seq<EntityMeta>, pending: seq<u32>, cursor: int)
    requires PendingInTable(meta, pending) && |meta| <= HALF
    requires cursor <= |pending|
    requires NewIdsFit(|meta|, cursor)
    ensures ReserveBatch(meta, pending, |pending|, |pending| - cursor)
         == RecycledPart(meta, pending, cursor, |pending|) + NewPart(|meta|, cursor, |pending|)
    ensures FlushOrder(|meta|, pending, cursor)
         == Ids(NewPart(|meta|, cursor, |pending|)) + Ids(RecycledPart(meta, pending, cursor, |pending|))
  {
    BatchParts(meta, pending, |pending|, |pending| - cursor, cursor);
    RecycledIds(meta, pending, cursor, |pending|);
    NewIds(|meta|, cursor, |pending|);
    if cursor < 0 {
      FlushOrderWithNewIds(|meta|, pending, cursor);
    } else {
      FlushOrderWithoutNewIds(|meta|, pending, cursor);
    }
  }

  lemma FlushOrderWithNewIds(metaLen: nat, pending: seq<u32>, cursor: int)
    requires forall i :: 0 <= i < |pending| ==> pending[i] < metaLen
    requires cursor < 0 && metaLen - cursor <= HALF
    ensures FlushOrder(metaLen, pending, cursor)
         == IdRange(NewIdBounds(metaLen, cursor, |pending|).0, NewIdBounds(metaLen, cursor, |pending|).1)
          + pending[Max(cursor, 0)..Max(|pending|, 0)]
  {
    assert NewIdBounds(metaLen, cursor, |pending|) == (metaLen, metaLen - cursor);
    assert pending[0..|pending|] == pending;
  }

  lemma FlushOrderWithoutNewIds(metaLen: nat, pending: seq<u32>, cursor: int)
    requires forall i :: 0 <= i < |pending| ==> pending[i] < metaLen
    requires 0 <= cursor <= |pending| && metaLen <= HALF
    ensures FlushOrder(metaLen, pending, cursor)
         == IdRange(NewIdBounds(metaLen, cursor, |pending|).0, NewIdBounds(metaLen, cursor, |pending|).1)
          + pending[Max(cursor, 0)..Max(|pending|, 0)]
  {
    assert NewIdBounds(metaLen, cursor, |pending|) == (0, 0);
    assert IdRange(0, 0) == [];
  }

  lemma MultisetSwap(x: seq<u32>, y: seq<u32>)
    ensures multiset(x + y) == multiset(y + x)
  {
  }

  /** As a multiset, `flush` calls `init` on exactly the ids reserved since the last flush. */
  lemma FlushCoversReserved(meta: seq<EntityMeta>, pending: seq<u32>, cursor: int)
    requires PendingInTable(meta, pending) && |meta| <= HALF
    requires cursor <= |pending|
    requires NewIdsFit(|meta|, cursor)
    ensures multiset(FlushOrder(|meta|, pending, cursor))
         == multiset(Ids(ReserveBatch(meta, pending, |pending|, |pending| - cursor)))
  {
    var recycled, brandNew := RecycledPart(meta, pending, cursor, |pending|), NewPart(|meta|, cursor, |pending|);
    FlushVisitsOutstanding(meta, pending, cursor);
    IdsConcat(recycled, brandNew);
    MultisetSwap(Ids(recycled), Ids(brandNew));
  }
}

=== FILE: scenarios.dfy ===
/** The unit tests of src/entities.rs as clients of the model; the `ensures` state what each
    test checks. The `reserve_entities` and `reserve_entity` tests are first stated for any
    sizes (`n` allocations, the last `f` freed, `r` reserved), then for the test's own numbers;
    the `contains` test is stated for its own numbers only; `alloc_and_free` is stated for any
    sequence of random choices. */
module Scenarios {
  import opened Handles
  import opened Slots
  import opened Reservation
  import opened Allocator

  /** Allocates `n` ids on a fresh table: they are `0 .. n`, all with generation 0. */
  method AllocFresh(n: nat) returns (ents: Entities, v: seq<Entity>)
    requires n <= HALF
    ensures fresh(ents) && ents.Valid() && !ents.NeedsFlush()
    ensures ents.meta == Empties(n) && ents.pending == []
    ensures |v| == n && forall k :: 0 <= k < n ==> v[k] == Entity(0, k)
  {
    ents := new Entities();
    v := [];
    for i := 0 to n
      invariant ents.Valid() && !ents.NeedsFlush()
      invariant ents.meta == Empties(i) && ents.pending == []
      invariant |v| == i && forall k :: 0 <= k < i ==> v[k] == Entity(0, k)
    {
      var e := ents.Alloc();
      v := v + [e];
    }
  }

  /** The check-and-write loop of `reserve_test_helper`: each allocated handle is contained, and
      `get_mut(..).unwrap().index = 37` succeeds on it. Only locations change: every slot named
      by a handle ends with row 37 in its unchanged archetype, and every other slot is untouched. */
  method CheckAndTouch(ents: Entities, v: seq<Entity>) returns (allContained: bool, allWritten: bool)
    requires ents.Valid()
    requires forall k :: 0 <= k < |v| ==> v[k].id < |ents.meta| && ents.Contains(v[k])
    modifies ents
    ensures ents.Valid() && allContained && allWritten
    ensures ents.pending == old(ents.pending) && ents.freeCursor == old(ents.freeCursor)
    ensures |ents.meta| == old(|ents.meta|)
    ensures forall k :: 0 <= k < |ents.meta| ==> ents.meta[k].generation == old(ents.meta[k].generation)
    ensures forall k :: 0 <= k < |v| ==>
      ents.GetMut(v[k]) == Ok(Location(old(ents.meta[v[k].id].location.archetype), 37))
    ensures forall k :: 0 <= k < |ents.meta| && ents.meta[k] != old(ents.meta[k]) ==>
      ents.meta[k] == EntityMeta(old(ents.meta[k].generation), Location(old(ents.meta[k].location.archetype), 37))
    ensures forall k :: 0 <= k < |ents.meta| && (forall j :: 0 <= j < |v| ==> v[j].id != k) ==>
      ents.meta[k] == old(ents.meta[k])
  {
    ghost var meta0 := ents.meta;
    allContained, allWritten := true, true;
    for i := 0 to |v|
      invariant ents.Valid() && allContained && allWritten
      invariant ents.pending == old(ents.pending) && ents.freeCursor == old(ents.freeCursor)
      invariant |ents.meta| == |meta0|
      invariant forall k :: 0 <= k < |meta0| ==> ents.meta[k].generation == meta0[k].generation
      invariant forall k :: 0 <= k < |meta0| ==> ents.meta[k].location.archetype == meta0[k].location.archetype
      invariant forall k :: 0 <= k < |meta0| && ents.meta[k] != meta0[k] ==>
        ents.meta[k] == EntityMeta(meta0[k].generation, Location(meta0[k].location.archetype, 37))
      invariant forall k :: 0 <= k < i ==> ents.GetMut(v[k]) == Ok(Location(meta0[v[k].id].location.archetype, 37))
      invariant forall k :: 0 <= k < |meta0| && (forall j :: 0 <= j < i ==> v[j].id != k) ==> ents.meta[k] == meta0[k]
    {
      allContained := allContained && ents.Contains(v[i]);
      var slot := ents.GetMut(v[i]);
      allWritten := allWritten && slot.Ok?;
      if slot.Ok? {
        var written := ents.SetLocation(v[i], Location(slot.value.archetype, 37));
      }
    }
  }

  /** Frees the handles `Entity(0, lo) .. Entity(0, hi)` of slots of generation 0, in order:
      each succeeds, those slots move to generation 1 with the placeholder location, the other
      slots are untouched, and the freelist becomes exactly those ids. */
  method FreeRun(ents: Entities, lo: nat, hi: nat)
    requires ents.Valid() && !ents.NeedsFlush()
    requires lo <= hi <= |ents.meta| && ents.pending == []
    requires forall k :: lo <= k < hi ==> ents.meta[k].generation == 0
    modifies ents
    ensures ents.Valid() && !ents.NeedsFlush()
    ensures ents.pending == IdRange(lo, hi) && ents.freeCursor == hi - lo
    ensures |ents.meta| == old(|ents.meta|)
    ensures forall k :: 0 <= k < |ents.meta| ==>
      ents.meta[k] == if lo <= k < hi then EntityMeta(1, PENDING_LOCATION) else old(ents.meta[k])
  {
    for i := lo to hi
      invariant ents.Valid() && !ents.NeedsFlush()
      invariant ents.pending == IdRange(lo, i)
      invariant |ents.meta| == old(|ents.meta|)
      invariant forall k :: 0 <= k < |ents.meta| ==>
        ents.meta[k] == if lo <= k < i then EntityMeta(1, PENDING_LOCATION) else old(ents.meta[k])
    {
      var r := ents.Free(Entity(0, i));
      assert ents.pending == IdRange(lo, i + 1);
    }
  }

  /** The start of `reserve_test_helper`: `n` ids allocated; each is contained and has its row
      set to 37; then the last `f` are freed in order, which leaves the freelist `n - f .. n`
      and the free cursor at `f`, while the kept handles still reach their row 37. */
  method AllocThenFreeTail(n: nat, f: nat) returns (ents: Entities, kept: seq<Entity>, touched: bool)
    requires f <= n <= HALF
    ensures fresh(ents) && ents.Valid() && !ents.NeedsFlush()
    ensures |ents.meta| == n && ents.pending == IdRange(n - f, n) && ents.freeCursor == f
    ensures Ids(kept) == IdRange(0, n - f)
    ensures touched
    ensures forall k :: 0 <= k < |kept| ==> ents.GetMut(kept[k]) == Ok(Location(0, 37))
  {
    var v, allContained, allWritten;
    ents, v := AllocFresh(n);
    allContained, allWritten := CheckAndTouch(ents, v);
    touched := allContained && allWritten;
    ghost var touchedMeta := ents.meta;
    FreeRun(ents, n - f, n);
    kept := v[..n - f];
    assert Ids(kept) == IdRange(0, n - f);
    forall k | 0 <= k < |kept|
      ensures ents.GetMut(kept[k]) == Ok(Location(0, 37))
    {
      assert kept[k] == v[k] && v[k].id == k;
      assert ents.meta[k] == touchedMeta[k];
    }
  }

  lemma IdRangeSlice(lo: int, hi: int, a: int, b: int)
    requires 0 <= lo <= hi <= HALF && 0 <= a <= b <= hi - lo
    ensures IdRange(lo, hi)[a..b] == IdRange(lo + a, lo + b)
  {
  }

  lemma IdRangeJoin(lo: int, mid: int, hi: int)
    requires 0 <= lo <= mid <= hi <= HALF
    ensures IdRange(lo, mid) + IdRange(mid, hi) == IdRange(lo, hi)
  {
  }

  /** A reservation of `r` from a freelist `n - f .. n` at cursor `f`, on a table of `n` slots:
      the last `min(f, r)` freed ids come back, then new ids, so the batch is one run of
      consecutive ids. */
  lemma ReserveFromFreedTail(meta: seq<EntityMeta>, pending: seq<u32>, n: nat, f: nat, r: nat)
    requires |meta| == n && f <= n && n - Min(f, r) + r <= HALF
    requires pending == IdRange(n - f, n)
    ensures PendingInTable(meta, pending)
    ensures NewIdsFit(n, f - r)
    ensures Ids(ReserveBatch(meta, pending, f, r)) == IdRange(n - Min(f, r), n - Min(f, r) + r)
  {
    BatchIds(meta, pending, f, r);
    var bounds := NewIdBounds(n, f - r, f);
    if f - r >= 0 {
      assert bounds == (0, 0);
      IdRangeSlice(n - f, n, f - r, f);
      assert IdRange(bounds.0, bounds.1) == [];
      assert Ids(ReserveBatch(meta, pending, f, r)) == pending[f - r..f];
    } else {
      assert bounds == (n, n - f + r);
      assert pending[0..f] == pending;
      IdRangeJoin(n - f, n, n - f + r);
    }
  }

  /** `flush` after that reservation visits the new ids, then the drained freelist, which
      together are the same run of ids. */
  lemma FlushAfterFreedTail(n: nat, f: nat, r: nat, pending: seq<u32>)
    requires f <= n && n - Min(f, r) + r <= HALF
    requires pending == IdRange(n - f, n)
    ensures forall i :: 0 <= i < |pending| ==> pending[i] < n
    ensures NewIdsFit(n, f - r)
    ensures FlushOrder(n, pending, f - r)
         == IdRange(n, n - Min(f, r) + r) + IdRange(n - Min(f, r), n)
  {
    if f - r >= 0 {
      IdRangeSlice(n - f, n, f - r, f);
      assert IdRange(n, n) == [];
      assert [] + IdRange(n - r, n) == IdRange(n - r, n);
    }
  }

  /** `reserve_entities(count)` collected into a vector: the batch below the cursor, every
      handle of which the table contains. */
  method ReserveAndCollect(ents: Entities, count: u32) returns (reserved: seq<Entity>, contained: bool)
    requires ents.Valid()
    requires ents.freeCursor - count >= 0 || |ents.meta| - (ents.freeCursor - count) <= U32_MAX
    modifies ents
    ensures ents.Valid()
    ensures ents.meta == old(ents.meta) && ents.pending == old(ents.pending)
    ensures ents.freeCursor == old(ents.freeCursor) - count
    ensures reserved == ReserveBatch(ents.meta, ents.pending, old(ents.freeCursor), count)
    ensures contained
  {
    ghost var meta, pending, cursor := ents.meta, ents.pending, ents.freeCursor;
    BatchHandles(meta, pending, cursor, count);
    var it := ents.ReserveEntities(count);
    reserved := Collect(it);
    assert reserved == ReserveBatch(meta, pending, cursor, count);
    contained := forall e :: e in reserved ==> ents.Contains(e);
    assert contained by {
      forall e | e in reserved
        ensures ents.Contains(e)
      {
        assert Vouched(meta, |meta| - (cursor - count), e);
      }
    }
  }

  /** The `init` of the test's `flush`, which only records the ids it is called on. */
  function KeepLocation(id: u32, loc: Location): (kept: Location)
  {
    loc
  }

  /** The `flush` at the end of `reserve_test_helper`, after `r` reservations from the
      freelist `n - f .. n` at cursor `f`: the new ids first, then the drained freelist; no
      reservation is left outstanding. */
  method FlushAfterReserve(ents: Entities, n: nat, f: nat, r: nat) returns (flushed: seq<u32>)
    requires f <= n && n - Min(f, r) + r <= HALF
    requires ents.Valid() && |ents.meta| == n && ents.pending == IdRange(n - f, n)
    requires ents.freeCursor == f - r
    modifies ents
    ensures ents.Valid() && !ents.NeedsFlush()
    ensures flushed == IdRange(n, n - Min(f, r) + r) + IdRange(n - Min(f, r), n)
  {
    FlushAfterFreedTail(n, f, r, ents.pending);
    flushed := ents.Flush(KeepLocation);
  }

  /** `reserve_test_helper` for any sizes, reserving with `reserve_entities`: every allocated
      handle is contained and writable (`touched`), the kept ids are
      `0 .. n - f`, the batch is the consecutive run ending at `n - f + r` (so with `r >= f`
      the kept and reserved ids are exactly `0 .. n - f + r`), every reserved handle is
      contained, the cursor ends at `f - r`, and `flush` visits the new ids, then the freelist. */
  method ReserveBatchAfterFree(n: nat, f: nat, r: nat)
    returns (touched: bool, kept: seq<Entity>, reserved: seq<Entity>, cursorAfterFree: int,
             cursorAfterReserve: int, contained: bool, flushed: seq<u32>)
    requires f <= n && n - Min(f, r) + r <= U32_MAX
    ensures touched
    ensures cursorAfterFree == f && cursorAfterReserve == f - r
    ensures Ids(kept) == IdRange(0, n - f)
    ensures Ids(reserved) == IdRange(n - Min(f, r), n - Min(f, r) + r)
    ensures f <= r ==> Ids(kept + reserved) == IdRange(0, n - f + r)
    ensures contained
    ensures flushed == IdRange(n, n - Min(f, r) + r) + IdRange(n - Min(f, r), n)
  {
    var ents;
    ents, kept, touched := AllocThenFreeTail(n, f);
    cursorAfterFree := ents.freeCursor;
    ghost var meta, pending := ents.meta, ents.pending;
    ReserveFromFreedTail(meta, pending, n, f, r);
    reserved, contained := ReserveAndCollect(ents, r);
    assert Ids(reserved) == IdRange(n - Min(f, r), n - Min(f, r) + r);
    cursorAfterReserve := ents.freeCursor;
    flushed := FlushAfterReserve(ents, n, f, r);
    KeptThenReserved(kept, reserved, n, f, r);
  }

  lemma KeptThenReserved(kept: seq<Entity>, reserved: seq<Entity>, n: nat, f: nat, r: nat)
    requires f <= n && n - Min(f, r) + r <= HALF
    requires Ids(kept) == IdRange(0, n - f)
    requires Ids(reserved) == IdRange(n - Min(f, r), n - Min(f, r) + r)
    ensures f <= r ==> Ids(kept + reserved) == IdRange(0, n - f + r)
  {
    IdsConcat(kept, reserved);
    if f <= r {
      IdRangeJoin(0, n - f, n - f + r);
    }
  }

  /** The ids `s` in the opposite order. */
  function Reversed(s: seq<u32>): (r: seq<u32>)
    ensures |r| == |s|
    ensures forall i :: 0 <= i < |s| ==> r[i] == s[|s| - 1 - i]
  {
    if s == [] then [] else Reversed(s[1..]) + [s[0]]
  }

  /** Reversing keeps every id, as often as it occurs. */
  lemma {:induction false} ReversedMultiset(s: seq<u32>)
    ensures multiset(Reversed(s)) == multiset(s)
  {
    if s != [] {
      ReversedMultiset(s[1..]);
      assert s == [s[0]] + s[1..];
    }
  }

  /** `reserve_entity` called `count` times, collected into a vector: the `k`-th handle is the
      one a single reservation from cursor `cursor - k` hands out, and every one is contained. */
  method ReserveOneByOne(ents: Entities, count: nat) returns (singles: seq<Entity>, contained: bool)
    requires ents.Valid() && NewIdsFit(|ents.meta|, ents.freeCursor - count)
    modifies ents
    ensures ents.Valid()
    ensures ents.meta == old(ents.meta) && ents.pending == old(ents.pending)
    ensures ents.freeCursor == old(ents.freeCursor) - count
    ensures |singles| == count
    ensures forall k :: 0 <= k < count ==>
      singles[k] == ReserveOne(ents.meta, ents.pending, old(ents.freeCursor) - k)
    ensures contained
  {
    ghost var meta, pending, cursor := ents.meta, ents.pending, ents.freeCursor;
    singles := [];
    for i := 0 to count
      invariant ents.Valid() && ents.meta == meta && ents.pending == pending
      invariant ents.freeCursor == cursor - i
      invariant |singles| == i
      invariant forall k :: 0 <= k < i ==> singles[k] == ReserveOne(meta, pending, cursor - k)
      invariant forall k :: 0 <= k < i ==> ents.Contains(singles[k])
    {
      var e := ents.ReserveEntity();
      BatchOfOne(meta, pending, cursor - i);
      singles := singles + [e];
    }
    contained := forall e :: e in singles ==> ents.Contains(e);
  }

  /** The ids of `reserve_entity` called `r` times from the freelist `n - f .. n` at cursor `f`:
      the freed ids from the top down, then new ids from `n` up. */
  lemma SinglesFromFreedTail(meta: seq<EntityMeta>, pending: seq<u32>, n: nat, f: nat, r: nat,
                             singles: seq<Entity>)
    requires |meta| == n && f <= n && n - Min(f, r) + r <= HALF
    requires pending == IdRange(n - f, n)
    requires PendingInTable(meta, pending) && NewIdsFit(n, f - r)
    requires |singles| == r
    requires forall k :: 0 <= k < r ==> singles[k] == ReserveOne(meta, pending, f - k)
    ensures Ids(singles) == Reversed(IdRange(n - Min(f, r), n)) + IdRange(n, n - Min(f, r) + r)
  {
    var lo := n - Min(f, r);
    var ids := Reversed(IdRange(lo, n)) + IdRange(n, lo + r);
    forall k | 0 <= k < r
      ensures Ids(singles)[k] == ids[k]
    {
      if k < f {
        assert singles[k].id == pending[f - k - 1];
      }
    }
  }

  /** `reserve_test_helper` for any sizes, reserving with `reserve_entity`: every allocated handle
      is contained and writable (`touched`), the freed ids come
      back from the top of the freelist down, then new ids follow; with `r >= f` the kept and
      reserved ids, once sorted, are exactly `0 .. n - f + r`. The cursor and `flush` end as
      with `reserve_entities`. */
  method ReserveSinglesAfterFree(n: nat, f: nat, r: nat)
    returns (touched: bool, kept: seq<Entity>, reserved: seq<Entity>, cursorAfterFree: int,
             cursorAfterReserve: int, contained: bool, flushed: seq<u32>)
    requires f <= n && n - Min(f, r) + r <= HALF
    ensures touched
    ensures cursorAfterFree == f && cursorAfterReserve == f - r
    ensures Ids(kept) == IdRange(0, n - f)
    ensures Ids(reserved) == Reversed(IdRange(n - Min(f, r), n)) + IdRange(n, n - Min(f, r) + r)
    ensures f <= r ==> multiset(Ids(kept + reserved)) == multiset(IdRange(0, n - f + r))
    ensures contained
    ensures flushed == IdRange(n, n - Min(f, r) + r) + IdRange(n - Min(f, r), n)
  {
    var ents;
    ents, kept, touched := AllocThenFreeTail(n, f);
    cursorAfterFree := ents.freeCursor;
    ghost var meta, pending := ents.meta, ents.pending;
    FlushAfterFreedTail(n, f, r, pending);
    reserved, contained := ReserveOneByOne(ents, r);
    SinglesFromFreedTail(meta, pending, n, f, r, reserved);
    cursorAfterReserve := ents.freeCursor;
    flushed := FlushAfterReserve(ents, n, f, r);
    KeptThenSingles(kept, reserved, n, f, r);
  }

  lemma KeptThenSingles(kept: seq<Entity>, reserved: seq<Entity>, n: nat, f: nat, r: nat)
    requires f <= n && n - Min(f, r) + r <= HALF
    requires Ids(kept) == IdRange(0, n - f)
    requires Ids(reserved) == Reversed(IdRange(n - Min(f, r), n)) + IdRange(n, n - Min(f, r) + r)
    ensures f <= r ==> multiset(Ids(kept + reserved)) == multiset(IdRange(0, n - f + r))
  {
    if f <= r {
      var low, freed, grown := IdRange(0, n - f), IdRange(n - f, n), IdRange(n, n - f + r);
      IdsConcat(kept, reserved);
      IdRangeJoin(0, n - f, n);
      IdRangeJoin(0, n, n - f + r);
      ReversedInside(Ids(kept + reserved), low, freed, grown, IdRange(0, n - f + r));
    }
  }

  /** Reversing a middle part of a sequence keeps its multiset. */
  lemma ReversedInside(all: seq<u32>, low: seq<u32>, mid: seq<u32>, high: seq<u32>, whole: seq<u32>)
    requires all == low + (Reversed(mid) + high)
    requires whole == (low + mid) + high
    ensures multiset(all) == multiset(whole)
  {
    ReversedMultiset(mid);
  }

  /** The numbers of `reserve_test_helper` (ten allocated, four freed, ten reserved), worked out. */
  lemma TestHelperNumbers()
    ensures IdRange(0, 6) == [0, 1, 2, 3, 4, 5]
    ensures IdRange(6, 16) == [6, 7, 8, 9, 10, 11, 12, 13, 14, 15]
    ensures Reversed(IdRange(6, 10)) + IdRange(10, 16) == [9, 8, 7, 6, 10, 11, 12, 13, 14, 15]
    ensures IdRange(10, 16) + IdRange(6, 10) == [10, 11, 12, 13, 14, 15, 6, 7, 8, 9]
  {
    assert Reversed(IdRange(6, 10)) == [9, 8, 7, 6];
  }

  /** The `reserve_entities` test: the four freed ids come back in freelist order, then the
      new ids 10 .. 15; kept and reserved ids are exactly 0 .. 15; the cursor goes 4, then -6;
      `flush` visits 10 .. 15, then 6 .. 9. */
  method ReserveEntitiesTest()
    returns (touched: bool, kept: seq<Entity>, reserved: seq<Entity>, cursorAfterFree: int,
             cursorAfterReserve: int, contained: bool, flushed: seq<u32>)
    ensures touched
    ensures cursorAfterFree == 4 && cursorAfterReserve == -6
    ensures Ids(kept) == [0, 1, 2, 3, 4, 5]
    ensures Ids(reserved) == [6, 7, 8, 9, 10, 11, 12, 13, 14, 15]
    ensures Ids(kept + reserved) == IdRange(0, 16)
    ensures contained
    ensures flushed == [10, 11, 12, 13, 14, 15, 6, 7, 8, 9]
  {
    touched, kept, reserved, cursorAfterFree, cursorAfterReserve, contained, flushed := ReserveBatchAfterFree(10, 4, 10);
    TestHelperNumbers();
  }

  /** The `reserve_entity` test: the four freed ids come back from the top of the freelist down,
      then the new ids 10 .. 15; sorted, kept and reserved ids are exactly 0 .. 15; the cursor
      and `flush` end as in the `reserve_entities` test. */
  method ReserveEntityTest()
    returns (touched: bool, kept: seq<Entity>, reserved: seq<Entity>, cursorAfterFree: int,
             cursorAfterReserve: int, contained: bool, flushed: seq<u32>)
    ensures touched
    ensures cursorAfterFree == 4 && cursorAfterReserve == -6
    ensures Ids(kept) == [0, 1, 2, 3, 4, 5]
    ensures Ids(reserved) == [9, 8, 7, 6, 10, 11, 12, 13, 14, 15]
    ensures multiset(Ids(kept + reserved)) == multiset(IdRange(0, 16))
    ensures contained
    ensures flushed == [10, 11, 12, 13, 14, 15, 6, 7, 8, 9]
  {
    touched, kept, reserved, cursorAfterFree, cursorAfterReserve, contained, flushed := ReserveSinglesAfterFree(10, 4, 10);
    TestHelperNumbers();
  }

  /** The `contains` test: twice, a freshly allocated handle is contained and stops being so
      once freed; then three handles from `reserve_entity` are contained before any flush. */
  method ContainsTest() returns (allocatedContained: bool, freesSucceeded: bool, freedGone: bool,
                                 reservedContained: bool)
    ensures allocatedContained && freesSucceeded && freedGone && reservedContained
  {
    var ents := new Entities();
    allocatedContained, freesSucceeded, freedGone, reservedContained := true, true, true, true;
    for i := 0 to 2
      invariant ents.Valid() && !ents.NeedsFlush() && |ents.meta| <= i
      invariant allocatedContained && freesSucceeded && freedGone
    {
      var e := ents.Alloc();
      allocatedContained := allocatedContained && ents.Contains(e);
      var r := ents.Free(e);
      freesSucceeded := freesSucceeded && r.Ok?;
      freedGone := freedGone && !ents.Contains(e);
    }
    EmptyBatch(ents.meta, ents.pending, ents.freeCursor);
    ghost var cursor := ents.freeCursor;
    for i := 0 to 3
      invariant ents.Valid() && |ents.meta| <= 2
      invariant ents.freeCursor == cursor - i && cursor >= 0
      invariant reservedContained
    {
      var e := ents.ReserveEntity();
      reservedContained := reservedContained && ents.Contains(e);
    }
  }

  /** The bookkeeping of the `alloc_and_free` test, `steps` steps in: `idToGen` maps every
      live id to its generation, `freeSet` holds exactly the freed ids (the freelist, which has
      no repeats), the two are disjoint and together cover every id below `firstUnused`, which
      is the table length. Each step raises a generation by at most one, so none has wrapped
      and every freed slot has a generation above 0. */
  ghost predicate Ledger(meta: seq<EntityMeta>, pending: seq<u32>, idToGen: map<u32, u32>,
                   freeSet: set<u32>, firstUnused: nat, steps: nat)
  {
    firstUnused == |meta| && |meta| <= steps && NoDuplicates(pending)
    && (forall id :: id in freeSet <==> id in pending)
    && (forall id :: id in idToGen ==> id < |meta| && meta[id].generation == idToGen[id] && id !in freeSet)
    && (forall id: u32 :: id < |meta| ==> id in idToGen || id in freeSet)
    && (forall id :: id in freeSet ==> id < |meta| && 0 < meta[id].generation)
    && (forall k :: 0 <= k < |meta| ==> meta[k].generation <= steps)
  }

  /** A set holding exactly the elements of a sequence is empty exactly when the sequence is. */
  lemma FreeSetIsPending(pending: seq<u32>, freeSet: set<u32>)
    requires forall id :: id in freeSet <==> id in pending
    ensures freeSet == {} <==> pending == []
  {
    if pending != [] {
      assert pending[0] in freeSet;
    }
  }

  /** `alloc` from the freelist: the popped id was freed and is not live, and the ledger holds
      once it moves from the free set to the live map with its slot's generation. */
  lemma LedgerPop(meta: seq<EntityMeta>, pending: seq<u32>, idToGen: map<u32, u32>, freeSet: set<u32>,
                  steps: nat)
    requires Ledger(meta, pending, idToGen, freeSet, |meta|, steps) && |pending| > 0
    ensures pending[|pending| - 1] in freeSet && pending[|pending| - 1] !in idToGen
    ensures Ledger(meta, pending[..|pending| - 1],
                   idToGen[pending[|pending| - 1] := meta[pending[|pending| - 1]].generation],
                   freeSet - {pending[|pending| - 1]}, |meta|, steps + 1)
  {
    var id, rest := pending[|pending| - 1], pending[..|pending| - 1];
    assert pending == rest + [id];
    forall y | y in freeSet - {id}
      ensures y in rest
    {
      var k :| 0 <= k < |pending| && pending[k] == y;
      assert k < |rest|;
    }
  }

  /** `alloc` of a new id: with nothing freed, appending an `EMPTY` slot and making its id live
      with generation 0 keeps the ledger; that id was not live before. */
  lemma LedgerGrow(meta: seq<EntityMeta>, idToGen: map<u32, u32>, steps: nat)
    requires Ledger(meta, [], idToGen, {}, |meta|, steps) && steps < U32_MAX
    ensures |meta| !in idToGen
    ensures Ledger(meta + [EMPTY], [], idToGen[|meta| := 0], {}, |meta| + 1, steps + 1)
  {
  }

  /** Writing a location keeps the ledger, which only looks at generations. */
  lemma LedgerLocation(meta: seq<EntityMeta>, pending: seq<u32>, idToGen: map<u32, u32>, freeSet: set<u32>,
                       steps: nat, id: nat, loc: Location)
    requires Ledger(meta, pending, idToGen, freeSet, |meta|, steps) && id < |meta|
    ensures Ledger(meta[id := EntityMeta(meta[id].generation, loc)], pending, idToGen, freeSet, |meta|, steps)
  {
    var meta' := meta[id := EntityMeta(meta[id].generation, loc)];
    assert forall k :: 0 <= k < |meta| ==> meta'[k].generation == meta[k].generation;
  }

  /** The `alloc` branch of `alloc_and_free`: while `freeSet` is not empty the new id is one of
      its members (`fromFreelist`); `get_mut` on the new handle succeeds (`written`); and no live
      id is handed out again (`insertedFresh`, the `insert(..).is_none()` check). */
  method AllocStep(ents: Entities, idToGen: map<u32, u32>, freeSet: set<u32>, firstUnused: nat, steps: nat)
    returns (idToGen': map<u32, u32>, freeSet': set<u32>, firstUnused': nat,
             fromFreelist: bool, written: bool, insertedFresh: bool)
    requires ents.Valid() && !ents.NeedsFlush() && steps < U32_MAX
    requires Ledger(ents.meta, ents.pending, idToGen, freeSet, firstUnused, steps)
    modifies ents
    ensures ents.Valid() && !ents.NeedsFlush()
    ensures Ledger(ents.meta, ents.pending, idToGen', freeSet', firstUnused', steps + 1)
    ensures fromFreelist && written && insertedFresh
  {
    FreeSetIsPending(ents.pending, freeSet);
    if freeSet != {} {
      LedgerPop(ents.meta, ents.pending, idToGen, freeSet, steps);
    } else {
      LedgerGrow(ents.meta, idToGen, steps);
    }
    var entity := ents.Alloc();
    var id := entity.id;
    fromFreelist, freeSet', firstUnused' := true, freeSet, firstUnused;
    if freeSet != {} {
      fromFreelist := id in freeSet;
      freeSet' := freeSet - {id};
    } else if id >= firstUnused {
      firstUnused' := id + 1;
    }
    insertedFresh := id !in idToGen;
    idToGen' := idToGen[id := entity.generation];
    var slot := ents.GetMut(entity);
    written := slot.Ok?;
    if slot.Ok? {
      LedgerLocation(ents.meta, ents.pending, idToGen', freeSet', steps + 1, id, Location(slot.value.archetype, 37));
      var r := ents.SetLocation(entity, Location(slot.value.archetype, 37));
    }
  }

  /** The `free` branch of `alloc_and_free`, on the id `pick % firstUnused`: the handle is
      rebuilt from `idToGen`, with generation 0 for an id that is not live, and `free` succeeds
      exactly when the id was live (`freeAgrees`). */
  method FreeStep(ents: Entities, idToGen: map<u32, u32>, freeSet: set<u32>, firstUnused: nat,
                  steps: nat, pick: nat)
    returns (idToGen': map<u32, u32>, freeSet': set<u32>, freeAgrees: bool)
    requires ents.Valid() && !ents.NeedsFlush() && steps < U32_MAX && firstUnused > 0
    requires Ledger(ents.meta, ents.pending, idToGen, freeSet, firstUnused, steps)
    modifies ents
    ensures ents.Valid() && !ents.NeedsFlush()
    ensures Ledger(ents.meta, ents.pending, idToGen', freeSet', firstUnused, steps + 1)
    ensures freeAgrees
  {
    var id: u32 := pick % firstUnused;
    var live := id in idToGen;
    var entity := Entity(if live then idToGen[id] else 0, id);
    idToGen' := if live then idToGen - {id} else idToGen;
    var r := ents.Free(entity);
    freeAgrees := r.Ok? == live;
    freeSet' := freeSet + {id};
  }

  /** The `alloc_and_free` test, with the random choices as a parameter: step `k` allocates when
      `ops[k].0` holds or nothing was allocated yet, and otherwise frees the id
      `ops[k].1 % firstUnused`. Every check of the test holds at every step. */
  method AllocAndFree(ops: seq<(bool, nat)>)
    returns (fromFreelist: bool, written: bool, insertedFresh: bool, freeAgrees: bool)
    requires |ops| <= U32_MAX
    ensures fromFreelist && written && insertedFresh && freeAgrees
  {
    var ents := new Entities();
    var firstUnused: nat := 0;
    var idToGen: map<u32, u32> := map[];
    var freeSet: set<u32> := {};
    fromFreelist, written, insertedFresh, freeAgrees := true, true, true, true;
    for i := 0 to |ops|
      invariant ents.Valid() && !ents.NeedsFlush()
      invariant Ledger(ents.meta, ents.pending, idToGen, freeSet, firstUnused, i)
      invariant fromFreelist && written && insertedFresh && freeAgrees
    {
      if ops[i].0 || firstUnused == 0 {
        var f, w, n;
        idToGen, freeSet, firstUnused, f, w, n := AllocStep(ents, idToGen, freeSet, firstUnused, i);
        fromFreelist, written, insertedFresh := fromFreelist && f, written && w, insertedFresh && n;
      } else {
        var a;
        idToGen, freeSet, a := FreeStep(ents, idToGen, freeSet, firstUnused, i, ops[i].1);
        freeAgrees := freeAgrees && a;
      }
    }
  }
}

=== FILE: slots.dfy ===
/** The per-id slot record, the storage location it holds, and the error of the allocator
    (src/entities.rs, `EntityMeta`, `Location`, `NoSuchEntity`). */
module Slots {
  import opened Handles

  /** Where an entity's components live: an archetype (table) and a row in it. */
  datatype Location = Location(archetype: u32, index: u32)

  /** Archetype 0 with row `u32::MAX`: "no location assigned yet". */
  const PENDING_LOCATION: Location := Location(0, U32_MAX)

  /** One slot of the table, indexed by id: the current generation and location. */
  datatype EntityMeta = EntityMeta(generation: u32, location: Location)

  /** `EntityMeta::EMPTY`: the slot every new id starts with. */
  const EMPTY: EntityMeta := EntityMeta(0, PENDING_LOCATION)

  /** The single error of the allocator. */
  datatype NoSuchEntity = NoSuchEntity

  datatype Result<T> = Ok(value: T) | Err(error: NoSuchEntity)

  datatype Option<T> = None | Some(value: T)

  /** `generation += 1` on a `u32`, with the silent wrap-around of a release build. The next
      generation always differs from the current one, which is what makes a freed handle stale. */
  function NextGeneration(g: u32): (next: u32)
    ensures next != g
    ensures g < U32_MAX ==> next == g + 1
    ensures g == U32_MAX ==> next == 0
  {
    (g + 1) % HALF
  }

  /** `n` copies of the empty slot: what `Vec::resize(len + n, EMPTY)` appends. */
  function Empties(n: nat): (slots: seq<EntityMeta>)
    ensures |slots| == n
    ensures forall k :: 0 <= k < n ==> slots[k] == EMPTY
  {
    seq(n, _ => EMPTY)
  }

  predicate NoDuplicates(ids: seq<u32>)
  {
    forall i, j :: 0 <= i < j < |ids| ==> ids[i] != ids[j]
  }

  /** The table after `init` has been applied, in order, to the location of each id in `ids`,
      as `flush` does; an id listed twice is initialised twice. Generations are never touched. */
  function InitSlots(m: seq<EntityMeta>, ids: seq<u32>, init: (u32, Location) -> Location): (r: seq<EntityMeta>)
    requires forall i :: 0 <= i < |ids| ==> ids[i] < |m|
    ensures |r| == |m|
    ensures forall k :: 0 <= k < |m| ==> r[k].generation == m[k].generation
    decreases |ids|
  {
    if |ids| == 0 then m
    else
      var before := InitSlots(m, ids[..|ids| - 1], init);
      var id := ids[|ids| - 1];
      before[id := EntityMeta(before[id].generation, init(id, before[id].location))]
  }

  /** A slot whose id is not listed is left exactly as it was. */
  lemma {:induction false} InitSlotsElsewhere(m: seq<EntityMeta>, ids: seq<u32>, init: (u32, Location) -> Location, k: nat)
    requires forall i :: 0 <= i < |ids| ==> ids[i] < |m|
    requires k < |m| && k !in ids
    ensures InitSlots(m, ids, init)[k] == m[k]
    decreases |ids|
  {
    if |ids| > 0 {
      var prefix := ids[..|ids| - 1];
      assert k !in prefix by {
        forall i | 0 <= i < |prefix| ensures prefix[i] != k {
          assert prefix[i] == ids[i];
        }
      }
      InitSlotsElsewhere(m, prefix, init, k);
    }
  }

  /** When no id repeats, every listed slot ends up holding `init` of its original location. */
  lemma {:induction false} InitSlotsOnce(m: seq<EntityMeta>, ids: seq<u32>, init: (u32, Location) -> Location)
    requires forall i :: 0 <= i < |ids| ==> ids[i] < |m|
    requires NoDuplicates(ids)
    ensures forall j :: 0 <= j < |ids| ==>
      InitSlots(m, ids, init)[ids[j]] == EntityMeta(m[ids[j]].generation, init(ids[j], m[ids[j]].location))
    decreases |ids|
  {
    if |ids| > 0 {
      var prefix := ids[..|ids| - 1];
      InitSlotsOnce(m, prefix, init);
      forall j | 0 <= j < |ids|
        ensures InitSlots(m, ids, init)[ids[j]] == EntityMeta(m[ids[j]].generation, init(ids[j], m[ids[j]].location))
      {
        if j < |ids| - 1 {
          assert ids[j] == prefix[j];
        } else {
          assert ids[j] !in prefix by {
            forall i | 0 <= i < |prefix| ensures prefix[i] != ids[j] {
              assert prefix[i] == ids[i];
            }
          }
          InitSlotsElsewhere(m, prefix, init, ids[j]);
        }
      }
    }
  }
}
